=== FILE: README.md ===
# XMidiCtrl mapping engine — a Dafny model

XMidiCtrl is a MIDI controller plugin for a flight simulator. Its mapping
engine turns incoming MIDI messages into simulator actions (commands and
dataref writes) and turns simulator state back into outgoing MIDI messages
for controller LEDs. This project models that engine as immutable
configuration records, explicit per-mapping state and pure step functions,
and proves what each step promises:

- `Mapping` (common.dfy, map.dfy): the base mapping. It covers the channel
  and data-1 readers with their defaults and priority, the validity check,
  the sublayer gate, the dispatch key and the cached description text.
- `EncoderIn` (map_in_enc.dfy): the inbound encoder. It covers the delay
  throttle, direction classification in relative and range mode, the
  "previous data-2" memory, the min/max clamp, and the dataref and command
  execution paths.
- `PushPullIn` (map_in_pnp.dfy): the inbound push-and-pull button. It is a
  two-timestamp state machine with time as an explicit millisecond input and
  a 500 ms threshold.
- `DatarefOut` (map_out_drf.dfy): the outbound dataref mapping. It covers
  per-dataref change detection against a string cache, on/off
  classification, the `all`/`one` send modes, task construction and `reset`.
- `TextLog` (text_logger.dfy): the per-profile text logger. It covers the
  level filter, the error/warning counters, the parent logger, the size
  bound in debug mode and the newline join of all messages.
- `MessageLog` (logger.dfy): the plugin-wide logger. It covers the level
  filter, text and MIDI message lists, bounds-checked access and clearing.
- `Environment` (environment.dfy) is the simulator as the engine sees it.
  It has a set of known datarefs, string and numeric values, a set of
  read-only datarefs, and a trace to which every executed command is
  appended.
- `Text` (text.dfy) holds the newline join shared by both text outputs.

MIDI's "none" sentinel (an unsigned byte above 127) is `Option.None`, both
for an unset configuration field and for the data-2 of an incoming message
that carries none, which the encoder reads without a check. A
configured integer cast to `unsigned char` is reduced modulo 256.

## Model

| member | source | states |
|---|---|---|
| Mapping.ReadChannel | src/profile/map/map.cpp:212-228 | the channel is a byte; it is 11 when the table has no channel key, and an in-range configured channel is kept as is |
| Mapping.ReadData1 | src/profile/map/map.cpp:239-280 | the selectors have priority CC, note, pitch bend, program change, and the first present wins; pitch bend yields data-1 0; with no selector the type is none and data-1 is unset |
| Mapping.ReadCommonConfig | src/profile/map/map.cpp:176-188 | the channel is exactly the one the channel reader yields (11 by default), data-1 and its type are the ones the data-1 reader yields, and the sublayer is read only when asked (empty otherwise); logs "channel defaulted" iff no channel and an error iff no selector |
| Mapping.Check | src/profile/map/map.cpp:149-155 | the base check: channel and data-1 set and the type not none; related to the readers by `Mapping.ParsedMappingCheck` |
| Mapping.ParsedMappingCheck | src/profile/map/map.cpp:241-242 | a freshly read mapping passes the base check iff a selector was configured, and fails it iff the missing-selector error was logged |
| Mapping.SelectorPriority | src/profile/map/map.cpp:246-271 | once a CC selector is present, the note, pitch-bend and program-change keys have no influence |
| Mapping.CheckSublayer | src/profile/map/map.cpp:194-200 | the gate is open iff the mapping's sublayer is empty or equals the active one |
| Mapping.GlobalMappingAlwaysPasses | src/profile/map/map.cpp:194-200 | a mapping without a sublayer passes for every active sublayer |
| Mapping.Data1TypeAsString | src/profile/map/map.cpp:307-334 | the type code is empty exactly for type none |
| Mapping.Data1TypeCodesDistinct | src/profile/map/map.cpp:307-334 | different types have different codes |
| Mapping.GetKey | src/profile/map/map.cpp:139-143 | the key carries the channel and data-1 unchanged, and its type code is empty iff the type is none |
| Mapping.GetKeyIdentifies | src/profile/map/map.cpp:139-143 | two mappings share a key iff they agree on channel, data-1 type and data-1; the sublayer does not matter |
| Mapping.MapText | src/profile/map/map.cpp:120-133 | short and long texts are cached independently; a non-empty cache is returned untouched and an empty one is filled by the renderer |
| Mapping.MapTextIsCached | src/profile/map/map.cpp:120-133 | after one non-empty build, a second request returns the same text and cache whatever the renderer would now yield |
| EncoderIn.ReadConfig | src/profile/map/map_in/map_in_enc.cpp:58-128 | the dataref is the configured name (empty when absent), and a non-empty one selects dataref mode, otherwise command mode; absent fast modifiers or fast commands fall back to the normal ones; mode and delay default when absent |
| EncoderIn.CheckErrors | src/profile/map/map_in/map_in_enc.cpp:134-174 | every rule is evaluated, and each error is listed iff its rule fails: base check (which fails silently, without a log message); in dataref mode, unknown dataref, all four modifiers zero, or min not below max; in command mode, no command set |
| EncoderIn.Check | src/profile/map/map_in/map_in_enc.cpp:134-174 | the mapping is valid iff no rule fails |
| EncoderIn.RelativeDirection | src/profile/map/map_in/map_in_enc.cpp:335-357 | below 61 is fast down, 61-63 down, 64 nothing, 65-68 up, above 68 fast up, each as an iff; a missing data-2 counts as fast up |
| EncoderIn.RangeDirection | src/profile/map/map_in/map_in_enc.cpp:366-393 | 0 forces down and 127 forces up; otherwise the result is up iff data-2 exceeds the previous value, so equal is down, and down when there is no previous value; a missing data-2 is up iff there is a previous value |
| EncoderIn.Clamp | src/profile/map/map_in/map_in_enc.cpp:477-490 | a negative modifier can only raise the value, and only to a defined min; a non-negative one can only lower it, and only to a defined max; an in-range value is returned unchanged |
| EncoderIn.DelayGate | src/profile/map/map_in/map_in_enc.cpp:185-192 | without a delay every event acts; with delay d, an event acts iff the counter has reached d, which resets it, and otherwise the counter grows by one |
| EncoderIn.ActsOver | src/profile/map/map_in/map_in_enc.cpp:185-192 | over n events at most n act; with a delay d the counter, starting within 0..d, stays within 0..d; with no delay it never moves |
| EncoderIn.ThrottleSkips | src/profile/map/map_in/map_in_enc.cpp:185-192 | while the counter stays at or below the delay, events are only counted |
| EncoderIn.ActsOverSplit | src/profile/map/map_in/map_in_enc.cpp:185-192 | running the throttle over n then k events is the same as running it over n + k |
| EncoderIn.OneWindow | src/profile/map/map_in/map_in_enc.cpp:185-192 | from a fresh counter, d + 1 events let exactly one act and leave the counter at 0 |
| EncoderIn.ThrottleCycle | src/profile/map/map_in/map_in_enc.cpp:185-192 | from a fresh counter, exactly one of every d + 1 events acts and the counter is back at 0 |
| EncoderIn.NoThrottle | src/profile/map/map_in/map_in_enc.cpp:185-186 | with no delay configured every event acts and the counter never moves |
| EncoderIn.ExecuteDatarefMode | src/profile/map/map_in/map_in_enc.cpp:322-414 | always handled and never runs a command; records data-2 as the previous value, including after a failed read and a missing data-2; the first range event and an unreadable dataref leave the simulator as it was; otherwise the clamped, adjusted value is written |
| EncoderIn.ExecuteCommandMode | src/profile/map/map_in/map_in_enc.cpp:420-471 | relative mode runs the command for the classified direction (nothing at 64) and keeps the state; range mode always runs one up or down command, the first event included, and records data-2 |
| EncoderIn.Execute | src/profile/map/map_in/map_in_enc.cpp:180-198 | always handled; a sublayer mismatch changes neither state nor simulator; a throttled event only advances the counter; otherwise the dataref or command path runs |
| EncoderIn.FirstRangeEvent | src/profile/map/map_in/map_in_enc.cpp:360-364 | from the initial state the first range event is swallowed in dataref mode but runs a command in command mode, and both remember its data-2 |
| EncoderIn.SentinelKeepsRangeUnprimed | src/profile/map/map_in/map_in_enc.cpp:358-364 | on a fresh range dataref mapping, a message without data-2 leaves it without a previous value, so the next event is swallowed too and neither changes the simulator |
| EncoderIn.SentinelIsFastUp | src/profile/map/map_in/map_in_enc.cpp:433-438 | in relative command mode a message without data-2 runs the fast-up command |
| EncoderIn.RelativeCentreWritesBack | src/profile/map/map_in/map_in_enc.cpp:324-325 | in relative dataref mode, data-2 64 writes the current value back, clamped to the configured bounds (unchanged when it lies within them) |
| PushPullIn.ReadConfig | src/profile/map/map_in/map_in_pnp.cpp:123-133 | the base fields come from the common reader, and a missing push or pull command reads as empty |
| PushPullIn.Check | src/profile/map/map_in/map_in_pnp.cpp:139-148 | valid iff the base check passes and at least one of push and pull is non-empty |
| PushPullIn.TimePointReset | src/profile/map/map_in/map_in_pnp.cpp:208-212 | both timestamps become unset |
| PushPullIn.MarkReceived | src/profile/map/map_in/map_in_pnp.cpp:101-106 | a press clears any stale release and sets the received time to now |
| PushPullIn.MarkReleased | src/profile/map/map_in/map_in_pnp.cpp:112-117 | a release is recorded only while a press is pending, and otherwise nothing changes |
| PushPullIn.Execute | src/profile/map/map_in/map_in_pnp.cpp:154-196 | no pending press or a sublayer mismatch gives an idle state with nothing run; an unreleased press younger than 500 ms is pending, not handled and unchanged; otherwise the press always resolves, exactly one command runs (pull iff unreleased or held over 500 ms) and the state goes idle; when nothing runs the simulator is unchanged |
| PushPullIn.PressThenRelease | src/profile/map/map_in/map_in_pnp.cpp:184-192 | a press released after t ms appends exactly the pull command if t > 500, else the push command (exactly 500 ms is a push) |
| PushPullIn.PressWithoutRelease | src/profile/map/map_in/map_in_pnp.cpp:176-188 | an unreleased press is pending before 500 ms have elapsed and resolves to a pull from then on |
| PushPullIn.ResolvedIsIdle | src/profile/map/map_in/map_in_pnp.cpp:170-174 | after a press resolves, a further evaluation without a new press does nothing |
| PushPullIn.StrayReleaseIgnored | src/profile/map/map_in/map_in_pnp.cpp:112-117 | a release with no press leaves the idle state idle |
| DatarefOut.SetData2On | lib/map/map_out/map_out_drf.cpp:90-96 | the result is in 0..127; a value above 127 becomes 127 and an in-range one is kept |
| DatarefOut.SetData2Off | lib/map/map_out/map_out_drf.cpp:102-108 | the result is in 0..127; a value above 127 becomes 0 and an in-range one is kept |
| DatarefOut.Data2RepairAsymmetric | lib/map/map_out/map_out_drf.cpp:90-108 | for every out-of-range byte the on and off repairs disagree |
| DatarefOut.ReadDatarefs | lib/map/map_out/map_out_drf.cpp:120-127 | a single name gives a one-element list and an array is kept in order with duplicates |
| DatarefOut.ReadValues | lib/map/map_out/map_out_drf.cpp:129-149 | an array gives the set of its elements; an empty or absent scalar gives the empty set; a non-empty scalar gives a singleton |
| DatarefOut.ReadSendMode | lib/map/map_out/map_out_drf.cpp:157-169 | the mode switches only on its exact keyword; any other value keeps the default |
| DatarefOut.ReadConfig | lib/map/map_out/map_out_drf.cpp:114-170 | `send_on` is all iff configured "all", and `send_off` is one iff configured "one"; both data-2 values lie in 0..127, default to 127 and 0, and keep an in-range configured value |
| DatarefOut.ReadConfigDefaults | src/profile/map/map_out/map_out_drf.h:64-68 | without those keys: send on one, send off all, data-2 on 127 and off 0 |
| DatarefOut.CheckErrors | lib/map/map_out/map_out_drf.cpp:176-221 | every rule is evaluated, and each error is listed iff its rule fails: base check (which fails silently, without a log message), empty dataref list, both value sets empty, each unknown dataref by name, on or off data-2 out of range |
| DatarefOut.Check | lib/map/map_out/map_out_drf.cpp:176-221 | valid iff there are no errors, i.e. iff the base check passes, the list is non-empty, some value is set, all datarefs exist and both data-2 values are in range |
| DatarefOut.ReadConfigData2Valid | lib/map/map_out/map_out_drf.cpp:90-108 | a read configuration never fails the data-2 range rules |
| DatarefOut.ScanChanges | lib/map/map_out/map_out_drf.cpp:241-266 | each readable dataref's cache entry becomes its current value, and unreadable ones are untouched; "changed" holds iff some read value differs from its cached value, an uncached one counting as ""; "any read" holds iff some dataref is readable |
| DatarefOut.FillCache | lib/map/map_out/map_out_drf.cpp:271-273 | every listed dataref gets an entry, existing entries are kept, and new ones read as "" |
| DatarefOut.Classify | lib/map/map_out/map_out_drf.cpp:275-291 | with a non-empty on-set, on iff the value is in it; with an empty on-set, off iff the value is in the off-set; neither only when both sets are non-empty and contain the value in neither |
| DatarefOut.CurrentValues | lib/map/map_out/map_out_drf.cpp:271-273 | one value per dataref in list order, each the cached value after the scan |
| DatarefOut.Counts | lib/map/map_out/map_out_drf.cpp:272-291 | no dataref is counted twice; the on (off) count equals the list length iff every value is on (off), and is positive iff some value is |
| DatarefOut.MsgTypeFor | lib/map/map_out/map_out_drf.cpp:300-324 | a note becomes note-on or note-off by state, and the other types keep their own message type |
| DatarefOut.Decide | lib/map/map_out/map_out_drf.cpp:293-343 | a task exists iff the on condition or the off condition holds under its send mode; the on condition wins and sends data-2 on, otherwise data-2 off; channel and data-1 are copied, and "data changed" is the scan's flag |
| DatarefOut.Gate | lib/map/map_out/map_out_drf.cpp:236-268 | the send gate after the scan: on-change needs a change and permanent needs a successful read; its effect is stated by `DatarefOut.Execute` |
| DatarefOut.Execute | lib/map/map_out/map_out_drf.cpp:227-344 | a sublayer mismatch returns no task and the same cache; otherwise read datarefs are stored, other entries kept and no foreign key added, and a listed dataref neither read nor cached gets the entry "" iff the gate passes; a task is decided on the current values iff on-change saw a change or permanent saw a successful read |
| DatarefOut.CurrentValuesAfterScan | lib/map/map_out/map_out_drf.cpp:241-273 | after scanning and filling, each dataref's cached value is its current value if readable, else its old cached value, else "" |
| DatarefOut.OnChangeSendsOnce | lib/map/map_out/map_out_drf.cpp:241-269 | in on-change mode, a second evaluation over unchanged simulator values emits no task |
| DatarefOut.FirstObservationIsChange | lib/map/map_out/map_out_drf.cpp:249-258 | the first observation of a non-empty value counts as a change |
| DatarefOut.UnreadableKeepsCache | lib/map/map_out/map_out_drf.cpp:245-246 | an unreadable dataref's cache entry is neither created nor changed |
| DatarefOut.Reset | lib/map/map_out/map_out_drf.cpp:350-383 | the task always has "data changed" set and data-2 0, a note maps to note-off, control change, pitch bend and program change keep their own message type, and channel and data-1 are copied |
| DatarefOut.MapTextDrf | lib/map/map_out/map_out_drf.cpp:389-401 | the newline join of the names, adding no separator while the text is still empty; the plain newline join when no name is empty, and empty for an empty list |
| Text.JoinFromMatchesJoin | src/common/text_logger.cpp:162-170 | the accumulating join that skips the separator while the text is empty agrees with the plain newline join when no part is empty |
| Text.JoinFromSkipsLeadingEmpty | src/common/text_logger.cpp:164-165 | a leading empty part contributes nothing, not even a separator |
| TextLog.CheckLogLevel | src/common/text_logger.cpp:273-292 | errors and warnings always pass; info passes iff info logging or debug mode is on; debug passes iff debug mode is on |
| TextLog.DebugModeAdmitsMore | src/common/text_logger.cpp:273-292 | in debug mode every level passes, so switching it on never filters out a message |
| TextLog.EmptyListStillPopped | src/common/text_logger.cpp:329-331 | with a bound of 0 the trimming loop as written, from any list, reaches the empty list with its guard still true and so pops an empty deque |
| TextLog.TrimAsWrittenAgrees | src/common/text_logger.cpp:329-331 | with any non-zero bound (a negative one converted to `size_t`) the loop as written never faults and ends where the corrected trim does |
| TextLog.Trim | src/common/text_logger.cpp:329-331 | the corrected trim keeps the newest messages, as a suffix of the list, until the list is shorter than the bound or empty |
| TextLog.TrimAsWritten | src/common/text_logger.cpp:329-331 | the loop as written: when it ends without popping an empty deque, the result is a suffix of the list on which the guard is false |
| TextLog.AddMessage | src/common/text_logger.cpp:313-334 | the message is appended at the back; outside debug mode nothing is dropped; in debug mode only the oldest entries go, and with a bound of at least 1 a list at or over the bound ends with exactly bound entries while a shorter one keeps all; a negative bound, converted to size_t, drops nothing; the settings and counters are unchanged |
| TextLog.CreateMessage | src/common/text_logger.cpp:298-307 | a message that fails the filter leaves the logger unchanged, and one that passes is added |
| TextLog.Log | src/common/text_logger.cpp:197-261 | a warning or an error raises its own counter by one and the other levels none; the parent receives the message through its own filter, and its counters stay; the settings stay |
| TextLog.LoggedErrorIsReported | src/common/text_logger.cpp:179-191 | after an error (warning) the logger reports errors (warnings), and reported errors are never lost by logging |
| TextLog.HasErrors | src/common/text_logger.cpp:179-182 | errors are reported iff the error counter is positive; see `TextLog.LoggedErrorIsReported` |
| TextLog.HasWarnings | src/common/text_logger.cpp:188-191 | warnings are reported iff the warning counter is positive; see `TextLog.LoggedErrorIsReported` |
| TextLog.Clear | src/common/text_logger.cpp:127-133 | both counters are zero and the list is empty, and the settings stay |
| TextLog.MessagesAsText | src/common/text_logger.cpp:157-173 | the sole text for one message; otherwise the newline join with no separator while the text is empty, which is the plain join when no text is empty |
| MessageLog.EffectiveLevel | src/utils/logger.cpp:233-236 | without settings the level is debug, and otherwise it is the configured level |
| MessageLog.CheckLogLevel | src/utils/logger.cpp:231-260 | all and error always pass; warn unless the level is error; info iff the level is info or debug; debug iff the level is debug |
| MessageLog.FilterIsThreshold | src/utils/logger.cpp:238-257 | a type passes iff the configured level is at least as verbose as the type needs |
| MessageLog.RaisingLevelKeepsTypes | src/utils/logger.cpp:238-257 | raising the level from error towards debug never filters out a type that passed before |
| MessageLog.NoSettingsPassesAll | src/utils/logger.cpp:233-236 | without settings every type passes |
| MessageLog.PostTextMessage | src/utils/logger.cpp:97-108 | a filtered message leaves the logger unchanged; otherwise exactly one entry, the message, is appended and the earlier entries stay |
| MessageLog.PostMidiMessage | src/utils/logger.cpp:141-157 | the message is appended iff MIDI logging is enabled, and nothing else changes |
| MessageLog.ClearTextMessages | src/utils/logger.cpp:163-166 | the text list is empty, and the MIDI list stays |
| MessageLog.ClearMidiMessages | src/utils/logger.cpp:172-175 | the MIDI list is empty, and the text list stays |
| MessageLog.GetTextMessage | src/utils/logger.cpp:199-207 | the element at the index when it is in range, and nothing otherwise (a negative index included) |
| MessageLog.GetMidiMessage | src/utils/logger.cpp:212-220 | the element at the index when it is in range, and nothing otherwise |
| MessageLog.CountTextMessages | src/utils/logger.cpp:181-184 | the number of recorded text messages: zero exactly when the first access answers nothing; bounds the valid indices by `MessageLog.CountBoundsAccess` |
| MessageLog.CountMidiMessages | src/utils/logger.cpp:190-193 | the number of recorded MIDI messages: zero exactly when the first access answers nothing; bounds the valid indices by `MessageLog.CountBoundsAccess` |
| MessageLog.CountBoundsAccess | src/utils/logger.cpp:181-193 | access succeeds exactly at the indices below the count |
| MessageLog.PostedMessageIsRetrievable | src/utils/logger.cpp:97-108 | a message that passes the filter is found at the index equal to the old count |

## Left out

- Reading TOML, type errors in the configuration and the source-line text are not modelled. A configuration is an already-parsed record of optional fields. A missing required key (a dataref name, modifiers, the up/down commands) reads as the empty string or zero, is assumed to read that way; the reader helpers are outside the modelled files.
- The simulator SDK wrapper (src/xplane/data.cpp) is not part of this model. It is replaced by `Environment`: dataref existence is a set, values are maps, a write to a read-only dataref has no effect, and a command appends to a trace.
- The numeric value of MIDI's "none" sentinel is defined outside the modelled files. It is `Option.None` and is taken to lie above 127, so in range mode data-2 never exceeds a missing previous value, and a missing data-2 exceeds every present one.
- The encoder's on-screen label after a successful write (`display_label`) is not modelled. Neither are the mappings' runtime log messages: debug notes, a failed dataref read and a failed write. They go to the message's log, which is not part of the simulator state the model returns.
- `Mapping.ReadChannel`, `Mapping.ReadData1`, `Mapping.ParsedMappingCheck`: a configured channel or data-1 whose byte equals the "none" sentinel is treated as set. The source would find it unset and fail the base check, but the sentinel's value is defined outside the modelled files.
- `Mapping.GetKey`, `Mapping.GetKeyIdentifies`: the key is built by `create_map_key`, which is not part of this model. The key is abstracted as an injective tuple of channel, type code and data-1, so `Mapping.GetKeyIdentifies` holds only under that assumption.
- The values of the data-1 type codes (the KEY_* constants) are defined outside the modelled files. `Mapping.Data1TypeAsString` uses distinct placeholder codes, so only their distinctness and the emptiness of the none code are stated.
- The encoder's initial delay is declared outside the modelled files. "No delay" is taken to be -1, the value the `> -1` guard tests against.
- Float rounding is not modelled. Encoder values and modifiers are `real`, which the clamp rule only orders and adds.
- Timestamps, `strftime`, `vsnprintf` formatting, the log files and the message-type text conversion are not modelled. A message text is an opaque string, and the MIDI time is carried over as given.
- Atomics and the wall clock of the push-and-pull mapping are not modelled. Steps are sequential and "now" is an explicit millisecond input, so durations finer than a millisecond are not distinguished.
- The layout of the description texts (`build_mapping_text`, `map_text_parameter`, `map_text_cmd_drf`) is not modelled. `Mapping.MapText` takes the built text as an input; only the caching rule and the newline join of `map_text_drf` are modelled.
- `TextLog.Trim`: the debug-mode trim loop of `add_message` is modelled with an emptiness check that the source lacks (see Findings), so with a bound of 0 the model empties the list where the source pops an empty deque.
- `MessageLog.PostMidiMessage`: the source reads the MIDI-logging setting without checking that settings exist, so the model requires them to be present.
- The text logger's index access `message()` throws on an out-of-range index. It and `count()` are not modelled beyond the list itself.
- `MessageLog.CountBoundsAccess`: the `unsigned int` count is unbounded here; a list longer than 2^32 - 1 entries is not considered.
- The singleton accessors, `init` and the destructors of the loggers hold no logic beyond file handling, so they are not modelled.

## Findings

| source | as written | input that shows it | evidently intended | confidence | as-written member | corrected member |
|---|---|---|---|---|---|---|
| src/common/text_logger.cpp:329-331 | in debug mode, pop the front while the size is at least `max_size` | debug mode with `max_size` 0 and any list: once the list is empty the guard `0 >= 0` still holds, so `pop_front` runs on an empty deque (undefined behaviour) | stop trimming once the list is empty | not executed | TextLog.EmptyListStillPopped | TextLog.Trim |

The dataref change detection counts the first observation of a non-empty
value as a change, because an uncached dataref compares against the empty
string. The model follows the code in this (`DatarefOut.FirstObservationIsChange`).

=== FILE: common.dfy ===
/** Shared vocabulary of the mapping engine: an optional value standing in for
    the MIDI "none" sentinel, the data-1 message kinds, the MIDI data range and
    the truncating cast the configuration readers apply to integers. */
module Common {

  /** The conventional Some/None datatype; `None` plays the part of the
      MIDI_NONE sentinel that marks an unset channel, data-1 or data-2. */
  datatype Option<+T> = None | Some(value: T) {

    /** The contained value, or `default` when there is none */
    function GetOr(default: T): T {
      match this
      case Some(v) => v
      case None => default
    }
  }

  /** Smallest and largest value of a MIDI data byte */
  const MidiData2Min: int := 0
  const MidiData2Max: int := 127

  /** A MIDI data-2 value as carried by an incoming message */
  type Data2 = x: int | MidiData2Min <= x <= MidiData2Max

  /** The kind of MIDI message a mapping is keyed on */
  datatype Data1Type = NoType | ControlChange | Note | PitchBend | ProgramChange

  /** Severity of a log message, from most to least severe; the same four
      levels serve as message level and as the configured threshold */
  datatype LogLevel = Error | Warn | Info | Debug

  /** `static_cast<unsigned char>` of a configured integer: reduction modulo 256 */
  function ToByte(x: int): (b: int)
    ensures 0 <= b < 256
    ensures (b - x) % 256 == 0
    ensures 0 <= x < 256 ==> b == x
  {
    x % 256
  }
}

=== FILE: environment.dfy ===
/** The simulator as the mapping engine sees it: a set of known datarefs,
    their current values (as strings for outbound mirroring, as numbers for the
    encoder), the datarefs that reject writes, and the trace of executed
    commands. */
module Environment {
  import opened Common

  datatype Env = Env(
    known: set<string>,             // datarefs the simulator can find
    strValues: map<string, string>, // datarefs readable as text
    numValues: map<string, real>,   // datarefs readable as numbers
    readOnly: set<string>,          // datarefs whose writes are rejected
    trace: seq<string>              // commands executed so far, oldest first
  )

  /** Whether the simulator knows the dataref */
  predicate Exists(env: Env, name: string) {
    name in env.known
  }

  /** Read a dataref as text; `None` when the read fails */
  function ReadString(env: Env, name: string): (r: Option<string>)
    ensures r.Some? <==> name in env.strValues
    ensures r.Some? ==> r.value == env.strValues[name]
  {
    if name in env.strValues then Some(env.strValues[name]) else None
  }

  /** Read a dataref as a number; `None` when the read fails */
  function ReadNumber(env: Env, name: string): (r: Option<real>)
    ensures r.Some? <==> name in env.numValues
    ensures r.Some? ==> r.value == env.numValues[name]
  {
    if name in env.numValues then Some(env.numValues[name]) else None
  }

  /** Whether a write of a numeric value to the dataref is accepted */
  predicate Writable(env: Env, name: string) {
    name in env.numValues && name !in env.readOnly
  }

  /** Write a numeric value; a rejected write leaves the simulator unchanged */
  function WriteNumber(env: Env, name: string, value: real): (r: Env)
    ensures Writable(env, name) ==> r.numValues == env.numValues[name := value]
    ensures !Writable(env, name) ==> r == env
    ensures r.trace == env.trace && r.known == env.known && r.strValues == env.strValues
  {
    if Writable(env, name) then env.(numValues := env.numValues[name := value]) else env
  }

  /** Execute a command: it is appended to the trace and nothing else changes */
  function ExecuteCommand(env: Env, command: string): (r: Env)
    ensures r.trace == env.trace + [command]
    ensures r.(trace := env.trace) == env
  {
    env.(trace := env.trace + [command])
  }
}

=== FILE: logger.dfy ===
/** The plugin-wide message log: text messages filtered by the configured log
    level, MIDI messages recorded when MIDI logging is on, and index access
    that answers "nothing" out of range. The log file is not modelled. */
module MessageLog {
  import opened Common

  /** The type of a posted text message; `Always` is the source's "all" */
  datatype TextMsgType = Always | ErrorMsg | WarnMsg | InfoMsg | DebugMsg

  datatype Settings = Settings(logLevel: LogLevel, logMidi: bool)

  datatype TextMessage = TextMessage(time: string, msgType: TextMsgType, text: string)

  /** A MIDI message as recorded; its fields are carried over unchanged */
  datatype MidiMessage = MidiMessage(time: int, msgType: int, port: int, status: int, data: int, velocity: int)

  datatype Logger = Logger(settings: Option<Settings>, texts: seq<TextMessage>, midis: seq<MidiMessage>)

  /** The threshold in force: the configured level, or debug without settings */
  function EffectiveLevel(settings: Option<Settings>): (l: LogLevel)
    ensures settings.None? ==> l == Debug
    ensures settings.Some? ==> l == settings.value.logLevel
  {
    match settings
    case None => Debug
    case Some(s) => s.logLevel
  }

  /** Level filter: "all" and errors always pass, warnings unless the level
      is error, info at level info or debug, debug only at level debug. */
  function CheckLogLevel(settings: Option<Settings>, t: TextMsgType): (ok: bool)
    ensures t == Always || t == ErrorMsg ==> ok
    ensures t == WarnMsg ==> (ok <==> EffectiveLevel(settings) != Error)
    ensures t == InfoMsg ==> (ok <==> EffectiveLevel(settings) in {Info, Debug})
    ensures t == DebugMsg ==> (ok <==> EffectiveLevel(settings) == Debug)
  {
    var level := EffectiveLevel(settings);
    match t
    case Always => true
    case ErrorMsg => true
    case WarnMsg => level != Error
    case InfoMsg => level == Info || level == Debug
    case DebugMsg => level == Debug
  }

  /** Position of a level on the scale from error (0) to debug (3) */
  function Rank(l: LogLevel): nat {
    match l
    case Error => 0
    case Warn => 1
    case Info => 2
    case Debug => 3
  }

  /** The lowest level at which a message type passes */
  function Needed(t: TextMsgType): nat {
    match t
    case Always => 0
    case ErrorMsg => 0
    case WarnMsg => 1
    case InfoMsg => 2
    case DebugMsg => 3
  }

  /** The filter is a threshold: a type passes iff the level is at least as
      verbose as the type needs. Hence raising the level from error through
      debug never filters out a type that passed before. */
  lemma FilterIsThreshold(s: Settings, t: TextMsgType)
    ensures CheckLogLevel(Some(s), t) <==> Needed(t) <= Rank(s.logLevel)
  {
  }

  lemma RaisingLevelKeepsTypes(s: Settings, s': Settings, t: TextMsgType)
    requires Rank(s.logLevel) <= Rank(s'.logLevel)
    requires CheckLogLevel(Some(s), t)
    ensures CheckLogLevel(Some(s'), t)
  {
    FilterIsThreshold(s, t);
    FilterIsThreshold(s', t);
  }

  /** Without settings every type passes */
  lemma NoSettingsPassesAll(t: TextMsgType)
    ensures CheckLogLevel(None, t)
  {
  }

  /** Record a text message if the filter lets it through */
  function PostTextMessage(lg: Logger, msg: TextMessage): (r: Logger)
    ensures !CheckLogLevel(lg.settings, msg.msgType) ==> r == lg
    ensures CheckLogLevel(lg.settings, msg.msgType) ==>
              && |r.texts| == |lg.texts| + 1
              && r.texts[..|lg.texts|] == lg.texts
              && r.texts[|lg.texts|] == msg
    ensures r.midis == lg.midis && r.settings == lg.settings
  {
    if CheckLogLevel(lg.settings, msg.msgType) then
      lg.(texts := lg.texts + [msg])
    else lg
  }

  /** Record a MIDI message iff MIDI logging is enabled. The source reads
      the setting without a null check, so settings must be present. */
  function PostMidiMessage(lg: Logger, msg: MidiMessage): (r: Logger)
    requires lg.settings.Some?
    ensures lg.settings.value.logMidi ==> r.midis == lg.midis + [msg]
    ensures !lg.settings.value.logMidi ==> r == lg
    ensures r.texts == lg.texts && r.settings == lg.settings
  {
    if lg.settings.value.logMidi then lg.(midis := lg.midis + [msg]) else lg
  }

  /** Remove all text messages; MIDI messages stay */
  function ClearTextMessages(lg: Logger): (r: Logger)
    ensures |r.texts| == 0 && r.midis == lg.midis && r.settings == lg.settings
  {
    lg.(texts := [])
  }

  /** Remove all MIDI messages; text messages stay */
  function ClearMidiMessages(lg: Logger): (r: Logger)
    ensures |r.midis| == 0 && r.texts == lg.texts && r.settings == lg.settings
  {
    lg.(midis := [])
  }

  /** The text message at an index, or nothing when the index is out of range
      (a negative index converts to a huge unsigned one) */
  function GetTextMessage(lg: Logger, idx: int): (r: Option<TextMessage>)
    ensures r.Some? <==> 0 <= idx < |lg.texts|
    ensures r.Some? ==> r.value == lg.texts[idx]
  {
    if 0 <= idx < |lg.texts| then Some(lg.texts[idx]) else None
  }

  /** The MIDI message at an index, or nothing when the index is out of range */
  function GetMidiMessage(lg: Logger, idx: int): (r: Option<MidiMessage>)
    ensures r.Some? <==> 0 <= idx < |lg.midis|
    ensures r.Some? ==> r.value == lg.midis[idx]
  {
    if 0 <= idx < |lg.midis| then Some(lg.midis[idx]) else None
  }

  /** The number of recorded text messages */
  function CountTextMessages(lg: Logger): (n: nat)
    ensures n == 0 <==> GetTextMessage(lg, 0).None?
  {
    |lg.texts|
  }

  /** The number of recorded MIDI messages */
  function CountMidiMessages(lg: Logger): (n: nat)
    ensures n == 0 <==> GetMidiMessage(lg, 0).None?
  {
    |lg.midis|
  }

  /** The count bounds the valid indices: access succeeds exactly below it */
  lemma CountBoundsAccess(lg: Logger, idx: int)
    ensures GetTextMessage(lg, idx).Some? <==> 0 <= idx < CountTextMessages(lg)
    ensures GetMidiMessage(lg, idx).Some? <==> 0 <= idx < CountMidiMessages(lg)
  {
  }

  /** A posted message that passes the filter is found at the old count */
  lemma PostedMessageIsRetrievable(lg: Logger, msg: TextMessage)
    requires CheckLogLevel(lg.settings, msg.msgType)
    ensures GetTextMessage(PostTextMessage(lg, msg), |lg.texts|) == Some(msg)
  {
  }
}

=== FILE: map.dfy ===
/** The base mapping: the channel / data-1 / sublayer triple every mapping
    carries, how it is read from an already-parsed configuration table, the
    minimum-validity check, the sublayer gate, the dispatch key and the lazily
    cached description text. */
module Mapping {
  import opened Common

  /** Channel used when the configuration names none */
  const DefaultChannel: int := 11

  /** The fields of one configuration table the base mapping looks at; the
      pitch-bend selector carries no number, only its presence matters. */
  datatype MapConfig = MapConfig(
    ch: Option<int>,
    cc: Option<int>,
    note: Option<int>,
    pitchBend: bool,
    programChange: Option<int>,
    sl: Option<string>
  )

  /** Fields common to every mapping; `None` stands for MIDI_NONE */
  datatype Mapping = Mapping(
    channel: Option<int>,
    data1Type: Data1Type,
    data1: Option<int>,
    sublayer: string
  )

  /** Diagnostics the configuration reader writes to the log */
  datatype ConfigNote =
    | ChannelDefaulted   // info: no channel given, 11 is used
    | Data1Missing       // error: no MIDI type selector given

  /** Outcome of reading the common configuration */
  datatype Parsed = Parsed(mapping: Mapping, notes: seq<ConfigNote>)

  /** Whether any of the four data-1 selectors is present */
  predicate HasSelector(cfg: MapConfig) {
    cfg.cc.Some? || cfg.note.Some? || cfg.pitchBend || cfg.programChange.Some?
  }

  /** The channel: the configured number cast to a byte, or 11 when absent */
  function ReadChannel(cfg: MapConfig): (ch: int)
    ensures 0 <= ch < 256
    ensures cfg.ch.None? ==> ch == DefaultChannel
    ensures cfg.ch.Some? && 0 <= cfg.ch.value < 256 ==> ch == cfg.ch.value
  {
    match cfg.ch
    case None => DefaultChannel
    case Some(v) => ToByte(v)
  }

  /** The data-1 selector: control change, then note, then pitch bend, then
      program change; the first one present wins. */
  function ReadData1(cfg: MapConfig): (d: (Data1Type, Option<int>))
    ensures d.0 == NoType <==> !HasSelector(cfg)
    ensures d.1.None? <==> d.0 == NoType
    ensures d.1.Some? ==> 0 <= d.1.value < 256
    ensures cfg.cc.Some? ==> d == (ControlChange, Some(ToByte(cfg.cc.value)))
    ensures cfg.cc.None? && cfg.note.Some? ==> d == (Note, Some(ToByte(cfg.note.value)))
    ensures cfg.cc.None? && cfg.note.None? && cfg.pitchBend ==> d == (PitchBend, Some(0))
    ensures cfg.cc.None? && cfg.note.None? && !cfg.pitchBend && cfg.programChange.Some?
            ==> d == (ProgramChange, Some(ToByte(cfg.programChange.value)))
  {
    if cfg.cc.Some? then (ControlChange, Some(ToByte(cfg.cc.value)))
    else if cfg.note.Some? then (Note, Some(ToByte(cfg.note.value)))
    else if cfg.pitchBend then (PitchBend, Some(0))
    else if cfg.programChange.Some? then (ProgramChange, Some(ToByte(cfg.programChange.value)))
    else (NoType, None)
  }

  /** Read channel, data-1 and (optionally) the sublayer of one table */
  function ReadCommonConfig(cfg: MapConfig, readSublayer: bool): (p: Parsed)
    ensures p.mapping.channel == Some(ReadChannel(cfg))
    ensures p.mapping.data1Type == ReadData1(cfg).0 && p.mapping.data1 == ReadData1(cfg).1
    ensures ChannelDefaulted in p.notes <==> cfg.ch.None?
    ensures Data1Missing in p.notes <==> !HasSelector(cfg)
    ensures readSublayer && cfg.sl.Some? ==> p.mapping.sublayer == cfg.sl.value
    ensures !readSublayer || cfg.sl.None? ==> p.mapping.sublayer == ""
  {
    var d := ReadData1(cfg);
    var sl := if readSublayer && cfg.sl.Some? then cfg.sl.value else "";
    var notes := (if cfg.ch.None? then [ChannelDefaulted] else [])
               + (if HasSelector(cfg) then [] else [Data1Missing]);
    Parsed(Mapping(Some(ReadChannel(cfg)), d.0, d.1, sl), notes)
  }

  /** The minimum-validity predicate: channel and data-1 set, type known */
  predicate Check(m: Mapping) {
    m.channel.Some? && m.data1.Some? && m.data1Type != NoType
  }

  /** A freshly read mapping passes the base check exactly when a selector
      was configured; a missing selector is also reported as an error. */
  lemma ParsedMappingCheck(cfg: MapConfig, readSublayer: bool)
    ensures Check(ReadCommonConfig(cfg, readSublayer).mapping) <==> HasSelector(cfg)
    ensures !Check(ReadCommonConfig(cfg, readSublayer).mapping)
            <==> Data1Missing in ReadCommonConfig(cfg, readSublayer).notes
  {
  }

  /** Once a selector is present, the later selectors are ignored */
  lemma SelectorPriority(cfg: MapConfig, other: MapConfig)
    requires cfg.cc.Some? && other.cc == cfg.cc
    ensures ReadData1(cfg) == ReadData1(other)
  {
  }

  /** The sublayer gate: a mapping fires when it is global (empty sublayer)
      or its sublayer equals the active one. */
  function CheckSublayer(m: Mapping, active: string): (ok: bool)
    ensures ok <==> m.sublayer == "" || m.sublayer == active
  {
    !(active != m.sublayer && m.sublayer != "")
  }

  /** A global mapping passes the gate whatever sublayer is active */
  lemma GlobalMappingAlwaysPasses(m: Mapping, active: string)
    requires m.sublayer == ""
    ensures CheckSublayer(m, active)
  {
  }

  /** Text code of a data-1 type; the values of the source's KEY_* constants
      are defined outside the modelled files, so placeholder codes are used. */
  function Data1TypeAsString(t: Data1Type): (s: string)
    ensures s == "" <==> t == NoType
  {
    match t
    case NoType => ""
    case ControlChange => "cc"
    case Note => "note"
    case PitchBend => "pb"
    case ProgramChange => "pc"
  }

  /** The dispatch key of a mapping */
  datatype MapKey = MapKey(channel: Option<int>, typeCode: string, data1: Option<int>)

  function GetKey(m: Mapping): (k: MapKey)
    ensures k.channel == m.channel && k.data1 == m.data1
    ensures k.typeCode == "" <==> m.data1Type == NoType
  {
    MapKey(m.channel, Data1TypeAsString(m.data1Type), m.data1)
  }

  /** The four real types have distinct codes */
  lemma Data1TypeCodesDistinct(t: Data1Type, u: Data1Type)
    requires t != u
    ensures Data1TypeAsString(t) != Data1TypeAsString(u)
  {
  }

  /** Two mappings share a key exactly when they agree on channel, data-1
      type and data-1; the sublayer plays no part. */
  lemma GetKeyIdentifies(m: Mapping, n: Mapping)
    ensures GetKey(m) == GetKey(n)
            <==> m.channel == n.channel && m.data1Type == n.data1Type && m.data1 == n.data1
  {
    if m.data1Type != n.data1Type {
      Data1TypeCodesDistinct(m.data1Type, n.data1Type);
    }
  }

  /** The two cached description texts; empty means "not built yet" */
  datatype TextCache = TextCache(short: string, long: string)

  /** Return the short or long description, building it with `built` (the
      text the mapping's own renderer yields) only when that cache is empty.
      The other cache is never touched. */
  function MapText(cache: TextCache, isShort: bool, built: string): (r: (string, TextCache))
    ensures isShort ==> r.0 == r.1.short && r.1.long == cache.long
    ensures !isShort ==> r.0 == r.1.long && r.1.short == cache.short
    ensures isShort && cache.short != "" ==> r.1 == cache
    ensures !isShort && cache.long != "" ==> r.1 == cache
    ensures isShort && cache.short == "" ==> r.0 == built
    ensures !isShort && cache.long == "" ==> r.0 == built
  {
    if isShort then
      var c := if cache.short == "" then cache.(short := built) else cache;
      (c.short, c)
    else
      var c := if cache.long == "" then cache.(long := built) else cache;
      (c.long, c)
  }

  /** After a text has been built once (non-empty), later requests return it
      without rebuilding, whatever the renderer would now produce. */
  lemma MapTextIsCached(cache: TextCache, isShort: bool, built: string, rebuilt: string)
    requires built != ""
    ensures MapText(MapText(cache, isShort, built).1, isShort, rebuilt) == MapText(cache, isShort, built)
  {
  }
}

=== FILE: map_in_enc.dfy ===
/** The inbound encoder mapping: a rotary control that either adjusts a
    numeric dataref by a modifier ("dataref" mode) or executes one of four
    commands ("command" mode). Incoming data-2 is read either as a signed
    delta around 64 (relative mode) or as an absolute knob position compared
    with the previous one (range mode). An optional delay lets only one of
    every delay+1 events act. */
module EncoderIn {
  import opened Common
  import opened Environment
  import Mapping

  datatype EncoderMode = Relative | Range

  /** The four ways an event can move the target */
  datatype Direction = Up | Down | FastUp | FastDown

  /** Delay value meaning "no throttling"; the guard is `delay > -1` */
  const NoDelay: int := -1

  /** The already-parsed fields of an `enc` configuration table */
  datatype EncConfig = EncConfig(
    common: Mapping.MapConfig,
    mode: Option<EncoderMode>,
    delay: Option<int>,
    dataref: Option<string>,
    modifierUp: Option<real>,
    modifierDown: Option<real>,
    modifierFastUp: Option<real>,
    modifierFastDown: Option<real>,
    valueMin: Option<real>,
    valueMax: Option<real>,
    commandUp: Option<string>,
    commandDown: Option<string>,
    commandFastUp: Option<string>,
    commandFastDown: Option<string>
  )

  /** A configured encoder mapping; an empty `dataref` selects command mode */
  datatype EncMapping = EncMapping(
    base: Mapping.Mapping,
    mode: EncoderMode,
    delay: int,
    dataref: string,
    modifierUp: real,
    modifierDown: real,
    modifierFastUp: real,
    modifierFastDown: real,
    valueMin: Option<real>,
    valueMax: Option<real>,
    commandUp: string,
    commandDown: string,
    commandFastUp: string,
    commandFastDown: string
  )

  /** Per-mapping session state: the delay counter and the previous data-2
      (`None` is the MIDI_NONE sentinel: nothing seen yet, or a message that
      carried no data-2) */
  datatype EncState = EncState(delayCounter: int, prev: Option<Data2>)

  const InitialState: EncState := EncState(0, None)

  /** Whether the mapping works on a dataref rather than on commands */
  predicate DatarefMode(m: EncMapping) {
    m.dataref != ""
  }

  /** Read an `enc` table. A configured dataref selects dataref mode, which
      reads modifiers and the optional bounds; otherwise the four commands are
      read. Absent fast modifiers and fast commands take the normal ones. A
      missing required value reads as zero or as the empty string. */
  function ReadConfig(cfg: EncConfig, defaultMode: EncoderMode): (m: EncMapping)
    ensures m.base == Mapping.ReadCommonConfig(cfg.common, true).mapping
    ensures m.mode == cfg.mode.GetOr(defaultMode)
    ensures m.delay == cfg.delay.GetOr(NoDelay)
    ensures m.dataref == cfg.dataref.GetOr("")
    ensures DatarefMode(m) <==> cfg.dataref.Some? && cfg.dataref.value != ""
    ensures cfg.dataref.Some? ==>
              && m.modifierUp == cfg.modifierUp.GetOr(0.0)
              && m.modifierDown == cfg.modifierDown.GetOr(0.0)
              && m.modifierFastUp == cfg.modifierFastUp.GetOr(m.modifierUp)
              && m.modifierFastDown == cfg.modifierFastDown.GetOr(m.modifierDown)
              && m.valueMin == cfg.valueMin && m.valueMax == cfg.valueMax
              && m.commandUp == m.commandDown == m.commandFastUp == m.commandFastDown == ""
    ensures cfg.dataref.None? ==>
              && m.commandUp == cfg.commandUp.GetOr("")
              && m.commandDown == cfg.commandDown.GetOr("")
              && m.commandFastUp == cfg.commandFastUp.GetOr(m.commandUp)
              && m.commandFastDown == cfg.commandFastDown.GetOr(m.commandDown)
              && m.valueMin.None? && m.valueMax.None?
  {
    var base := Mapping.ReadCommonConfig(cfg.common, true).mapping;
    var mode := cfg.mode.GetOr(defaultMode);
    var delay := cfg.delay.GetOr(NoDelay);
    if cfg.dataref.Some? then
      var up := cfg.modifierUp.GetOr(0.0);
      var down := cfg.modifierDown.GetOr(0.0);
      EncMapping(base, mode, delay, cfg.dataref.value,
                 up, down, cfg.modifierFastUp.GetOr(up), cfg.modifierFastDown.GetOr(down),
                 cfg.valueMin, cfg.valueMax, "", "", "", "")
    else
      var up := cfg.commandUp.GetOr("");
      var down := cfg.commandDown.GetOr("");
      EncMapping(base, mode, delay, "", 0.0, 0.0, 0.0, 0.0, None, None,
                 up, down, cfg.commandFastUp.GetOr(up), cfg.commandFastDown.GetOr(down))
  }

  /** The validation rules of an encoder mapping */
  datatype EncCheckError =
    | BaseInvalid          // channel, data-1 or type missing
    | DatarefNotFound      // dataref mode: the simulator does not know it
    | ModifiersUndefined   // dataref mode: all four modifiers are zero
    | MinNotBelowMax       // dataref mode: both bounds given and min >= max
    | CommandsUndefined    // command mode: all four commands are empty

  /** Every rule is evaluated; the result lists each one that fails */
  function CheckErrors(m: EncMapping, env: Env): (errs: seq<EncCheckError>)
    ensures BaseInvalid in errs <==> !Mapping.Check(m.base)
    ensures DatarefNotFound in errs <==> DatarefMode(m) && !Exists(env, m.dataref)
    ensures ModifiersUndefined in errs <==>
              DatarefMode(m) && m.modifierUp == 0.0 && m.modifierDown == 0.0
              && m.modifierFastUp == 0.0 && m.modifierFastDown == 0.0
    ensures MinNotBelowMax in errs <==>
              DatarefMode(m) && m.valueMin.Some? && m.valueMax.Some? && m.valueMin.value >= m.valueMax.value
    ensures CommandsUndefined in errs <==>
              !DatarefMode(m) && m.commandUp == "" && m.commandDown == ""
              && m.commandFastUp == "" && m.commandFastDown == ""
  {
    (if Mapping.Check(m.base) then [] else [BaseInvalid])
    + (if DatarefMode(m) then
         (if Exists(env, m.dataref) then [] else [DatarefNotFound])
         + (if m.modifierUp == 0.0 && m.modifierDown == 0.0
               && m.modifierFastUp == 0.0 && m.modifierFastDown == 0.0
            then [ModifiersUndefined] else [])
         + (if m.valueMin.Some? && m.valueMax.Some? && m.valueMin.value >= m.valueMax.value
            then [MinNotBelowMax] else [])
       else
         (if m.commandUp == "" && m.commandDown == "" && m.commandFastUp == "" && m.commandFastDown == ""
          then [CommandsUndefined] else []))
  }

  /** The mapping is valid iff no rule fails */
  function Check(m: EncMapping, env: Env): (ok: bool)
    ensures ok <==> forall e: EncCheckError :: e !in CheckErrors(m, env)
  {
    CheckErrors(m, env) == []
  }

  /** Relative mode: below 61 fast down, 61..63 down, 64 nothing, 65..68 up,
      above 68 fast up. The data-2 of a message that carries none is the
      MIDI_NONE sentinel, an unsigned byte above 127, so it reads as fast up. */
  function RelativeDirection(d2: Option<Data2>): (dir: Option<Direction>)
    ensures d2.None? ==> dir == Some(FastUp)
    ensures dir == None <==> d2 == Some(64)
    ensures dir == Some(FastDown) <==> d2.Some? && d2.value < 61
    ensures dir == Some(Down) <==> d2.Some? && 61 <= d2.value < 64
    ensures dir == Some(Up) <==> d2.Some? && 64 < d2.value <= 68
    ensures dir == Some(FastUp) <==> d2.None? || d2.value > 68
  {
    match d2
    case None => Some(FastUp)
    case Some(v) =>
      if v < 64 then
        if v < 61 then Some(FastDown) else Some(Down)
      else if v > 64 then
        if v > 68 then Some(FastUp) else Some(Up)
      else None
  }

  /** Range mode: 0 always means down and 127 always up; otherwise the knob
      went up iff data-2 exceeds the previous value, so an equal value counts
      as down. MIDI_NONE is an unsigned byte outside 0..127, hence above every
      data-2: a missing previous value is never exceeded, a missing data-2
      exceeds every previous data-2 and equals a missing one. */
  function RangeDirection(d2: Option<Data2>, prev: Option<Data2>): (dir: Direction)
    ensures dir == Up || dir == Down
    ensures d2 == Some(MidiData2Min) ==> dir == Down
    ensures d2 == Some(MidiData2Max) ==> dir == Up
    ensures d2.Some? && MidiData2Min < d2.value < MidiData2Max && prev.Some? ==>
              (dir == Up <==> d2.value > prev.value)
    ensures d2.Some? && MidiData2Min < d2.value < MidiData2Max && prev.None? ==> dir == Down
    ensures d2.None? ==> (dir == Up <==> prev.Some?)
  {
    match d2
    case None => if prev.Some? then Up else Down
    case Some(v) =>
      if v == MidiData2Min then Down
      else if v == MidiData2Max then Up
      else if prev.Some? && v - prev.value > 0 then Up
      else Down
  }

  function ModifierFor(m: EncMapping, dir: Direction): real {
    match dir
    case Up => m.modifierUp
    case Down => m.modifierDown
    case FastUp => m.modifierFastUp
    case FastDown => m.modifierFastDown
  }

  function CommandFor(m: EncMapping, dir: Direction): string {
    match dir
    case Up => m.commandUp
    case Down => m.commandDown
    case FastUp => m.commandFastUp
    case FastDown => m.commandFastDown
  }

  /** Whether a value lies within the bounds that are defined */
  predicate WithinBounds(m: EncMapping, value: real) {
    (m.valueMin.None? || m.valueMin.value <= value) && (m.valueMax.None? || value <= m.valueMax.value)
  }

  /** Clamp the adjusted value: a negative modifier can only raise it to the
      minimum, a non-negative one can only lower it to the maximum, and only
      when that bound is defined. */
  function Clamp(m: EncMapping, value: real, modifier: real): (r: real)
    ensures modifier < 0.0 ==> value <= r
    ensures modifier < 0.0 && m.valueMin.Some? ==> m.valueMin.value <= r
    ensures modifier < 0.0 && r != value ==> m.valueMin.Some? && r == m.valueMin.value
    ensures modifier >= 0.0 ==> r <= value
    ensures modifier >= 0.0 && m.valueMax.Some? ==> r <= m.valueMax.value
    ensures modifier >= 0.0 && r != value ==> m.valueMax.Some? && r == m.valueMax.value
    ensures WithinBounds(m, value) ==> r == value
  {
    if modifier < 0.0 then
      if m.valueMin.Some? && value < m.valueMin.value then m.valueMin.value else value
    else
      if m.valueMax.Some? && value > m.valueMax.value then m.valueMax.value else value
  }

  /** The delay throttle for one sublayer-matching event: returns whether the
      event acts and the next counter value. */
  function DelayGate(delay: int, counter: int): (r: (bool, int))
    ensures delay <= NoDelay ==> r == (true, counter)
    ensures delay > NoDelay ==> (r.0 <==> counter >= delay)
    ensures delay > NoDelay && !r.0 ==> r.1 == counter + 1
    ensures delay > NoDelay && r.0 ==> r.1 == 0
  {
    if delay > NoDelay then
      if counter < delay then (false, counter + 1) else (true, 0)
    else (true, counter)
  }

  /** Run the throttle over `n` events: how many acted, and the final counter */
  function ActsOver(delay: int, counter: int, n: nat): (r: (nat, int))
    ensures r.0 <= n
    ensures delay > NoDelay && 0 <= counter <= delay ==> 0 <= r.1 <= delay
    ensures delay <= NoDelay ==> r.1 == counter
    decreases n
  {
    if n == 0 then (0, counter)
    else
      var g := DelayGate(delay, counter);
      var rest := ActsOver(delay, g.1, n - 1);
      ((if g.0 then 1 else 0) + rest.0, rest.1)
  }

  /** Running a prefix of a throttle window that ends before the counter
      reaches the delay: nothing acts and the counter just counts. */
  lemma {:induction false} ThrottleSkips(delay: nat, counter: nat, n: nat)
    requires counter + n <= delay
    ensures ActsOver(delay, counter, n) == (0, counter + n)
    decreases n
  {
    if n > 0 {
      ThrottleSkips(delay, counter + 1, n - 1);
    }
  }

  /** Runs compose: n events then k more events */
  lemma {:induction false} ActsOverSplit(delay: int, counter: int, n: nat, k: nat)
    ensures var a := ActsOver(delay, counter, n);
            var b := ActsOver(delay, a.1, k);
            ActsOver(delay, counter, n + k) == (a.0 + b.0, b.1)
    decreases n
  {
    if n > 0 {
      var g := DelayGate(delay, counter);
      ActsOverSplit(delay, g.1, n - 1, k);
    }
  }

  /** One full window of d+1 events from a fresh counter: one acts */
  lemma OneWindow(delay: nat)
    ensures ActsOver(delay, 0, delay + 1) == (1, 0)
  {
    ThrottleSkips(delay, 0, delay);
    ActsOverSplit(delay, 0, delay, 1);
  }

  /** The event count of `windows` windows, peeled one window at a time */
  lemma WindowsPeel(delay: nat, windows: nat)
    requires windows > 0
    ensures windows * (delay + 1) == (delay + 1) + (windows - 1) * (delay + 1)
  {
  }

  /** With delay d >= 0 and a fresh counter, exactly one of every d+1
      events acts, and the counter is back at zero after each window. */
  lemma {:induction false} ThrottleCycle(delay: nat, windows: nat)
    ensures ActsOver(delay, 0, windows * (delay + 1)) == (windows, 0)
    decreases windows
  {
    if windows == 0 {
      assert windows * (delay + 1) == 0;
    } else {
      var rest: nat := (windows - 1) * (delay + 1);
      WindowsPeel(delay, windows);
      OneWindow(delay);
      ThrottleCycle(delay, windows - 1);
      ActsOverSplit(delay, 0, delay + 1, rest);
    }
  }

  /** Without a delay every event acts and the counter is left alone */
  lemma {:induction false} NoThrottle(delay: int, counter: int, n: nat)
    requires delay <= NoDelay
    ensures ActsOver(delay, counter, n) == (n, counter)
    decreases n
  {
    if n > 0 {
      NoThrottle(delay, counter, n - 1);
    }
  }

  /** Outcome of handling one event; `handled` is the source's return value */
  datatype EncResult = EncResult(handled: bool, state: EncState, env: Env)

  /** The modifier a dataref-mode event applies (0 for relative centre 64) */
  function DatarefModifier(m: EncMapping, prev: Option<Data2>, d2: Option<Data2>): real {
    if m.mode == Relative then
      match RelativeDirection(d2)
      case None => 0.0
      case Some(dir) => ModifierFor(m, dir)
    else ModifierFor(m, RangeDirection(d2, prev))
  }

  /** Dataref mode: read, adjust by the modifier, clamp, write back. The
      previous data-2 is recorded after every event, including a failed read
      and the swallowed first event of range mode. No command runs. */
  function ExecuteDatarefMode(m: EncMapping, st: EncState, env: Env, d2: Option<Data2>): (r: EncResult)
    ensures r.handled
    ensures r.state == st.(prev := d2)
    ensures r.env.trace == env.trace
    ensures ReadNumber(env, m.dataref).None? ==> r.env == env
    ensures m.mode == Range && st.prev.None? ==> r.env == env
    ensures ReadNumber(env, m.dataref).Some? && !(m.mode == Range && st.prev.None?) ==>
              var mod := DatarefModifier(m, st.prev, d2);
              r.env == WriteNumber(env, m.dataref, Clamp(m, env.numValues[m.dataref] + mod, mod))
  {
    var st' := st.(prev := d2);
    match ReadNumber(env, m.dataref)
    case None => EncResult(true, st', env)
    case Some(value) =>
      if m.mode == Range && st.prev.None? then
        EncResult(true, st', env)
      else
        var mod := DatarefModifier(m, st.prev, d2);
        EncResult(true, st', WriteNumber(env, m.dataref, Clamp(m, value + mod, mod)))
  }

  /** Command mode: relative mode runs the command for the direction (none at
      64) and keeps no memory; range mode runs the up or down command (never a
      fast one), swallows nothing, and records the data-2. */
  function ExecuteCommandMode(m: EncMapping, st: EncState, env: Env, d2: Option<Data2>): (r: EncResult)
    ensures r.handled
    ensures m.mode == Relative ==> r.state == st
    ensures m.mode == Relative && d2 == Some(64) ==> r.env == env
    ensures m.mode == Relative && d2 != Some(64) ==>
              r.env == ExecuteCommand(env, CommandFor(m, RelativeDirection(d2).value))
    ensures m.mode == Range ==> r.state == st.(prev := d2)
    ensures m.mode == Range ==>
              r.env == ExecuteCommand(env, if RangeDirection(d2, st.prev) == Up then m.commandUp else m.commandDown)
  {
    if m.mode == Relative then
      match RelativeDirection(d2)
      case None => EncResult(true, st, env)
      case Some(dir) => EncResult(true, st, ExecuteCommand(env, CommandFor(m, dir)))
    else
      EncResult(true, st.(prev := d2), ExecuteCommand(env, CommandFor(m, RangeDirection(d2, st.prev))))
  }

  /** Handle one incoming event. A sublayer mismatch is handled with no
      effect at all; a throttled event only advances the delay counter. */
  function Execute(m: EncMapping, st: EncState, env: Env, d2: Option<Data2>, activeSublayer: string): (r: EncResult)
    ensures r.handled
    ensures !Mapping.CheckSublayer(m.base, activeSublayer) ==> r.state == st && r.env == env
    ensures Mapping.CheckSublayer(m.base, activeSublayer) && !DelayGate(m.delay, st.delayCounter).0 ==>
              r.env == env && r.state == st.(delayCounter := DelayGate(m.delay, st.delayCounter).1)
    ensures Mapping.CheckSublayer(m.base, activeSublayer) && DelayGate(m.delay, st.delayCounter).0 ==>
              var st' := st.(delayCounter := DelayGate(m.delay, st.delayCounter).1);
              r == if DatarefMode(m) then ExecuteDatarefMode(m, st', env, d2)
                   else ExecuteCommandMode(m, st', env, d2)
  {
    if !Mapping.CheckSublayer(m.base, activeSublayer) then EncResult(true, st, env)
    else
      var g := DelayGate(m.delay, st.delayCounter);
      var st' := st.(delayCounter := g.1);
      if !g.0 then EncResult(true, st', env)
      else if DatarefMode(m) then ExecuteDatarefMode(m, st', env, d2)
      else ExecuteCommandMode(m, st', env, d2)
  }

  /** The first range-mode event is swallowed only in dataref mode: there it
      changes nothing in the simulator, while in command mode it runs exactly
      one command (down, unless the knob is at 127). */
  lemma FirstRangeEvent(m: EncMapping, env: Env, d2: Option<Data2>, activeSublayer: string)
    requires m.mode == Range && m.delay <= NoDelay
    requires Mapping.CheckSublayer(m.base, activeSublayer)
    ensures DatarefMode(m) ==> Execute(m, InitialState, env, d2, activeSublayer).env == env
    ensures !DatarefMode(m) ==>
              Execute(m, InitialState, env, d2, activeSublayer).env.trace
              == env.trace + [if d2 == Some(MidiData2Max) then m.commandUp else m.commandDown]
    ensures Execute(m, InitialState, env, d2, activeSublayer).state.prev == d2
  {
  }

  /** A message without data-2 on a fresh range dataref mapping is recorded as
      the sentinel it carries, so the mapping still has no previous value and
      the next event is swallowed as well: two events, no simulator change. */
  lemma SentinelKeepsRangeUnprimed(m: EncMapping, env: Env, d2: Option<Data2>, activeSublayer: string)
    requires m.mode == Range && DatarefMode(m) && m.delay <= NoDelay
    requires Mapping.CheckSublayer(m.base, activeSublayer)
    ensures var r1 := Execute(m, InitialState, env, None, activeSublayer);
            && r1.state == InitialState && r1.env == env
            && Execute(m, r1.state, r1.env, d2, activeSublayer).env == env
  {
  }

  /** In relative mode a message without data-2 counts as a fast turn up */
  lemma SentinelIsFastUp(m: EncMapping, st: EncState, env: Env)
    requires m.mode == Relative && !DatarefMode(m)
    ensures ExecuteCommandMode(m, st, env, None).env == ExecuteCommand(env, m.commandFastUp)
  {
  }

  /** Relative centre in dataref mode: the value is written back; it stays
      the same unless it already exceeds a defined maximum, which the
      (non-negative, zero) modifier then enforces. */
  lemma RelativeCentreWritesBack(m: EncMapping, st: EncState, env: Env)
    requires m.mode == Relative && DatarefMode(m)
    requires m.dataref in env.numValues
    ensures ExecuteDatarefMode(m, st, env, Some(64)).env
            == WriteNumber(env, m.dataref, Clamp(m, env.numValues[m.dataref], 0.0))
    ensures WithinBounds(m, env.numValues[m.dataref]) && Writable(env, m.dataref) ==>
              ExecuteDatarefMode(m, st, env, Some(64)).env.numValues == env.numValues
  {
  }
}

=== FILE: map_in_pnp.dfy ===
/** The inbound push-and-pull mapping: a button that runs a "push" command on
    a short press and a "pull" command on a long one. Two timestamps (press
    received, press released) decide; time is an explicit input in
    milliseconds. */
module PushPullIn {
  import opened Common
  import opened Environment
  import Mapping

  /** Presses longer than this are pulls; also the failsafe timeout */
  const ThresholdMs: int := 500

  /** The already-parsed fields of a `pnp` configuration table */
  datatype PnpConfig = PnpConfig(common: Mapping.MapConfig, commandPush: Option<string>, commandPull: Option<string>)

  datatype PnpMapping = PnpMapping(base: Mapping.Mapping, commandPush: string, commandPull: string)

  /** The two timestamps; `None` is the "minimum time point" of the source */
  datatype PnpState = PnpState(received: Option<int>, released: Option<int>)

  const Idle: PnpState := PnpState(None, None)

  /** What one call to execute did */
  datatype PnpOutcome = NoAction | Pending | Pushed | Pulled

  datatype PnpResult = PnpResult(handled: bool, outcome: PnpOutcome, state: PnpState, env: Env)

  /** Read a `pnp` table; a missing command reads as the empty string */
  function ReadConfig(cfg: PnpConfig): (m: PnpMapping)
    ensures m.base == Mapping.ReadCommonConfig(cfg.common, true).mapping
    ensures m.commandPush == cfg.commandPush.GetOr("") && m.commandPull == cfg.commandPull.GetOr("")
  {
    PnpMapping(Mapping.ReadCommonConfig(cfg.common, true).mapping,
               cfg.commandPush.GetOr(""), cfg.commandPull.GetOr(""))
  }

  /** Valid iff the base check passes and at least one command is set */
  function Check(m: PnpMapping): (ok: bool)
    ensures ok <==> Mapping.Check(m.base) && (m.commandPush != "" || m.commandPull != "")
  {
    if !Mapping.Check(m.base) then false
    else !(m.commandPush == "" && m.commandPull == "")
  }

  /** Clear both timestamps */
  function TimePointReset(st: PnpState): (r: PnpState)
    ensures r.received.None? && r.released.None?
  {
    Idle
  }

  /** A press arrives: stale timestamps are cleared, then received is set */
  function MarkReceived(st: PnpState, now: int): (r: PnpState)
    ensures r.received == Some(now) && r.released.None?
  {
    TimePointReset(st).(received := Some(now))
  }

  /** A release arrives: recorded only while a press is pending */
  function MarkReleased(st: PnpState, now: int): (r: PnpState)
    ensures r.received == st.received
    ensures st.received.Some? ==> r.released == Some(now)
    ensures st.received.None? ==> r == st
  {
    if st.received.Some? then st.(released := Some(now)) else st
  }

  /** Whether a resolved press is a pull: no release arrived (failsafe) or
      the press lasted strictly longer than the threshold. */
  predicate IsPull(st: PnpState)
    requires st.received.Some?
  {
    st.released.None? || st.released.value - st.received.value > ThresholdMs
  }

  /** Evaluate the button at time `now`. Without a pending press (or on a
      sublayer mismatch) both timestamps are cleared and nothing runs. A press
      with no release younger than the threshold is pending: nothing changes
      and the source reports "not handled". Otherwise exactly one command
      runs, push or pull, and the state returns to idle. */
  function Execute(m: PnpMapping, st: PnpState, env: Env, now: int, activeSublayer: string): (r: PnpResult)
    ensures !Mapping.CheckSublayer(m.base, activeSublayer) || st.received.None? ==>
              r == PnpResult(true, NoAction, Idle, env)
    ensures r.outcome == Pending <==>
              Mapping.CheckSublayer(m.base, activeSublayer) && st.received.Some? && st.released.None?
              && now - st.received.value < ThresholdMs
    ensures r.outcome == Pending ==> !r.handled && r.state == st && r.env == env
    ensures r.outcome == NoAction ==> r.env == env
    ensures Mapping.CheckSublayer(m.base, activeSublayer) && st.received.Some? && r.outcome != Pending ==>
              r.outcome in {Pushed, Pulled}
    ensures r.outcome != Pending ==> r.handled && r.state == Idle
    ensures r.outcome == Pulled ==> r.env == ExecuteCommand(env, m.commandPull)
    ensures r.outcome == Pushed ==> r.env == ExecuteCommand(env, m.commandPush)
    ensures r.outcome in {Pushed, Pulled} ==>
              Mapping.CheckSublayer(m.base, activeSublayer) && st.received.Some?
              && (r.outcome == Pulled <==> IsPull(st))
  {
    if !Mapping.CheckSublayer(m.base, activeSublayer) || st.received.None? then
      PnpResult(true, NoAction, TimePointReset(st), env)
    else if st.released.None? && now - st.received.value < ThresholdMs then
      PnpResult(false, Pending, st, env)
    else if IsPull(st) then
      PnpResult(true, Pulled, TimePointReset(st), ExecuteCommand(env, m.commandPull))
    else
      PnpResult(true, Pushed, TimePointReset(st), ExecuteCommand(env, m.commandPush))
  }

  /** A press received at t0 and released at t1 resolves to push iff it
      lasted at most the threshold (exactly 500 ms is a push); exactly one
      command is appended to the trace. */
  lemma PressThenRelease(m: PnpMapping, env: Env, t0: int, t1: int, now: int, sl: string)
    requires Mapping.CheckSublayer(m.base, sl)
    ensures var st := MarkReleased(MarkReceived(Idle, t0), t1);
            var r := Execute(m, st, env, now, sl);
            && r.handled && r.state == Idle
            && r.env.trace == env.trace + [if t1 - t0 > ThresholdMs then m.commandPull else m.commandPush]
  {
  }

  /** Failsafe: a press never released is pending before the threshold has
      elapsed and resolves to pull from then on. */
  lemma PressWithoutRelease(m: PnpMapping, env: Env, t0: int, now: int, sl: string)
    requires Mapping.CheckSublayer(m.base, sl)
    ensures var r := Execute(m, MarkReceived(Idle, t0), env, now, sl);
            if now - t0 < ThresholdMs then r.outcome == Pending && !r.handled
            else r.outcome == Pulled && r.env.trace == env.trace + [m.commandPull] && r.state == Idle
  {
  }

  /** After a press is resolved, evaluating again without a new press does
      nothing. */
  lemma ResolvedIsIdle(m: PnpMapping, st: PnpState, env: Env, now: int, later: int, sl: string)
    requires Execute(m, st, env, now, sl).outcome in {Pushed, Pulled}
    ensures var r := Execute(m, st, env, now, sl);
            Execute(m, r.state, r.env, later, sl) == PnpResult(true, NoAction, Idle, r.env)
  {
  }

  /** A release without a preceding press is ignored */
  lemma StrayReleaseIgnored(now: int)
    ensures MarkReleased(Idle, now) == Idle
  {
  }
}

=== FILE: map_out_drf.dfy ===
/** The outbound dataref mapping: on every evaluation it reads a list of
    datarefs as text, detects whether any changed since the last evaluation,
    classifies each value against an "on" and an "off" value set, and decides
    whether to send an LED message to the device, and with which data-2. */
module DatarefOut {
  import opened Common
  import opened Environment
  import Mapping
  import Text

  /** `all`: every dataref must match; `one`: at least one must */
  datatype SendMode = All | One

  /** When the caller wants a message: only on a change, or every time */
  datatype OutboundSendMode = OnChange | Permanent

  /** The MIDI message type of an outbound task */
  datatype MidiMsgType = MsgNone | MsgControlChange | NoteOn | NoteOff | MsgPitchBend | MsgProgramChange

  /** Defaults of a fresh mapping */
  const DefaultSendOn: SendMode := One
  const DefaultSendOff: SendMode := All
  const DefaultData2On: int := MidiData2Max
  const DefaultData2Off: int := MidiData2Min

  type Byte = x: int | 0 <= x < 256

  /** The `dataref` key holds one name or an array of names */
  datatype DatarefField = SingleDataref(name: string) | DatarefArray(names: seq<string>)

  /** `value_on` / `value_off` hold one value or an array of values */
  datatype ValueField = ScalarValue(value: string) | ValueArray(values: seq<string>)

  /** The already-parsed fields of a `drf` configuration table */
  datatype DrfConfig = DrfConfig(
    common: Mapping.MapConfig,
    dataref: Option<DatarefField>,
    valueOn: Option<ValueField>,
    valueOff: Option<ValueField>,
    data2On: Option<int>,
    data2Off: Option<int>,
    sendOn: Option<string>,
    sendOff: Option<string>
  )

  /** A configured mapping. Datarefs form an ordered sequence that may repeat
      a name; the on and off values are sets. */
  datatype DrfMapping = DrfMapping(
    base: Mapping.Mapping,
    datarefs: seq<string>,
    valuesOn: set<string>,
    valuesOff: set<string>,
    sendOn: SendMode,
    sendOff: SendMode,
    data2On: int,
    data2Off: int
  )

  /** Last value seen per dataref name */
  type Cache = map<string, string>

  /** One MIDI message to send to the device */
  datatype OutboundTask = OutboundTask(
    msgType: MidiMsgType,
    channel: Option<int>,
    data1: Option<int>,
    data2: int,
    dataChanged: bool
  )

  /** Data-2 for "on": values above 127 become 127 */
  function SetData2On(b: Byte): (r: int)
    ensures MidiData2Min <= r <= MidiData2Max
    ensures b <= MidiData2Max ==> r == b
    ensures b > MidiData2Max ==> r == MidiData2Max
  {
    if b <= MidiData2Max then b else MidiData2Max
  }

  /** Data-2 for "off": values above 127 become 0 */
  function SetData2Off(b: Byte): (r: int)
    ensures MidiData2Min <= r <= MidiData2Max
    ensures b <= MidiData2Max ==> r == b
    ensures b > MidiData2Max ==> r == MidiData2Min
  {
    if b <= MidiData2Max then b else MidiData2Min
  }

  /** Out-of-range data-2 values are repaired asymmetrically: "on" saturates,
      "off" falls back to zero. */
  lemma Data2RepairAsymmetric(b: Byte)
    requires b > MidiData2Max
    ensures SetData2On(b) != SetData2Off(b)
  {
  }

  /** The datarefs named by the configuration, in order */
  function ReadDatarefs(f: Option<DatarefField>): (drs: seq<string>)
    ensures f.None? ==> drs == []
    ensures f.Some? && f.value.SingleDataref? ==> drs == [f.value.name]
    ensures f.Some? && f.value.DatarefArray? ==> drs == f.value.names
  {
    match f
    case None => []
    case Some(SingleDataref(n)) => [n]
    case Some(DatarefArray(ns)) => ns
  }

  /** A value set: an array gives the set of its elements; a scalar gives
      itself, except that an empty (or absent) scalar gives the empty set. */
  function ReadValues(f: Option<ValueField>): (vs: set<string>)
    ensures f.Some? && f.value.ValueArray? ==> forall v :: v in vs <==> v in f.value.values
    ensures (f.None? || (f.value.ScalarValue? && f.value.value == "")) ==> vs == {}
    ensures f.Some? && f.value.ScalarValue? && f.value.value != "" ==> vs == {f.value.value}
  {
    match f
    case None => {}
    case Some(ScalarValue(v)) => if v == "" then {} else {v}
    case Some(ValueArray(vals)) => set v | v in vals
  }

  /** A send mode changes from its default only on one exact word */
  function ReadSendMode(f: Option<string>, default: SendMode, word: string, switched: SendMode): (r: SendMode)
    ensures r == switched <==> f == Some(word) || default == switched
    ensures f != Some(word) ==> r == default
  {
    if f == Some(word) then switched else default
  }

  /** Read a `drf` table into a fresh mapping */
  function ReadConfig(cfg: DrfConfig): (m: DrfMapping)
    ensures m.base == Mapping.ReadCommonConfig(cfg.common, true).mapping
    ensures m.datarefs == ReadDatarefs(cfg.dataref)
    ensures m.valuesOn == ReadValues(cfg.valueOn) && m.valuesOff == ReadValues(cfg.valueOff)
    ensures m.sendOn == All <==> cfg.sendOn == Some("all")
    ensures m.sendOff == One <==> cfg.sendOff == Some("one")
    ensures MidiData2Min <= m.data2On <= MidiData2Max && MidiData2Min <= m.data2Off <= MidiData2Max
    ensures cfg.data2On.None? ==> m.data2On == DefaultData2On
    ensures cfg.data2Off.None? ==> m.data2Off == DefaultData2Off
    ensures cfg.data2On.Some? && MidiData2Min <= cfg.data2On.value <= MidiData2Max ==> m.data2On == cfg.data2On.value
    ensures cfg.data2Off.Some? && MidiData2Min <= cfg.data2Off.value <= MidiData2Max ==> m.data2Off == cfg.data2Off.value
  {
    DrfMapping(
      Mapping.ReadCommonConfig(cfg.common, true).mapping,
      ReadDatarefs(cfg.dataref),
      ReadValues(cfg.valueOn),
      ReadValues(cfg.valueOff),
      ReadSendMode(cfg.sendOn, DefaultSendOn, "all", All),
      ReadSendMode(cfg.sendOff, DefaultSendOff, "one", One),
      SetData2On(ToByte(cfg.data2On.GetOr(DefaultData2On))),
      SetData2Off(ToByte(cfg.data2Off.GetOr(DefaultData2Off))))
  }

  /** With no optional key present, the defaults of a fresh mapping remain */
  lemma ReadConfigDefaults(cfg: DrfConfig)
    requires cfg.sendOn.None? && cfg.sendOff.None? && cfg.data2On.None? && cfg.data2Off.None?
    ensures var m := ReadConfig(cfg);
            m.sendOn == DefaultSendOn && m.sendOff == DefaultSendOff
            && m.data2On == 127 && m.data2Off == 0
  {
  }

  /** The validation rules of an outbound dataref mapping */
  datatype DrfCheckError =
    | BaseInvalid
    | NoDatarefs
    | NoValues
    | UnknownDataref(name: string)
    | Data2OnInvalid
    | Data2OffInvalid

  /** Every rule is evaluated; the result holds each one that fails, naming
      every unknown dataref */
  function CheckErrors(m: DrfMapping, env: Env): (errs: set<DrfCheckError>)
    ensures BaseInvalid in errs <==> !Mapping.Check(m.base)
    ensures NoDatarefs in errs <==> |m.datarefs| == 0
    ensures NoValues in errs <==> m.valuesOn == {} && m.valuesOff == {}
    ensures forall n :: UnknownDataref(n) in errs <==> n in m.datarefs && !Exists(env, n)
    ensures Data2OnInvalid in errs <==> !(MidiData2Min <= m.data2On <= MidiData2Max)
    ensures Data2OffInvalid in errs <==> !(MidiData2Min <= m.data2Off <= MidiData2Max)
  {
    (if Mapping.Check(m.base) then {} else {BaseInvalid})
    + (if |m.datarefs| == 0 then {NoDatarefs} else {})
    + (if m.valuesOn == {} && m.valuesOff == {} then {NoValues} else {})
    + (set n | n in m.datarefs && !Exists(env, n) :: UnknownDataref(n))
    + (if MidiData2Min <= m.data2On <= MidiData2Max then {} else {Data2OnInvalid})
    + (if MidiData2Min <= m.data2Off <= MidiData2Max then {} else {Data2OffInvalid})
  }

  /** The mapping is valid iff no rule fails */
  function Check(m: DrfMapping, env: Env): (ok: bool)
    ensures ok <==> CheckErrors(m, env) == {}
    ensures ok <==> && Mapping.Check(m.base) && |m.datarefs| > 0
                    && (m.valuesOn != {} || m.valuesOff != {})
                    && (forall i :: 0 <= i < |m.datarefs| ==> Exists(env, m.datarefs[i]))
                    && MidiData2Min <= m.data2On <= MidiData2Max
                    && MidiData2Min <= m.data2Off <= MidiData2Max
  {
    var errs := CheckErrors(m, env);
    if errs == {} then
      assert forall i :: 0 <= i < |m.datarefs| ==> Exists(env, m.datarefs[i]) by {
        forall i | 0 <= i < |m.datarefs| ensures Exists(env, m.datarefs[i]) {
          assert UnknownDataref(m.datarefs[i]) !in errs;
        }
      }
      true
    else
      assert BaseInvalid in errs || NoDatarefs in errs || NoValues in errs
          || (exists n :: UnknownDataref(n) in errs) || Data2OnInvalid in errs || Data2OffInvalid in errs;
      false
  }

  /** A mapping read from configuration never fails the data-2 range rules */
  lemma ReadConfigData2Valid(cfg: DrfConfig, env: Env)
    ensures Data2OnInvalid !in CheckErrors(ReadConfig(cfg), env)
    ensures Data2OffInvalid !in CheckErrors(ReadConfig(cfg), env)
  {
  }

  /** The cached value of a dataref; an uncached one compares as "" */
  function Lookup(cache: Cache, d: string): string {
    if d in cache then cache[d] else ""
  }

  /** Result of the change-detection pass */
  datatype Scan = Scan(cache: Cache, changed: bool, anyRead: bool)

  /** Read every dataref in order; each successful read overwrites its cache
      entry, a failed read is skipped. `changed` records whether some read
      value differed from the value cached before it. */
  function ScanChanges(drs: seq<string>, cache: Cache, env: Env): (s: Scan)
    ensures forall d :: d in s.cache <==> d in cache || (d in drs && d in env.strValues)
    ensures forall d :: d in drs && d in env.strValues ==> s.cache[d] == env.strValues[d]
    ensures forall d :: d in cache && !(d in drs && d in env.strValues) ==> s.cache[d] == cache[d]
    ensures s.anyRead <==> exists i :: 0 <= i < |drs| && drs[i] in env.strValues
    ensures s.changed <==>
              exists i :: 0 <= i < |drs| && drs[i] in env.strValues && env.strValues[drs[i]] != Lookup(cache, drs[i])
    decreases |drs|
  {
    if |drs| == 0 then Scan(cache, false, false)
    else
      var d := drs[0];
      match ReadString(env, d)
      case None =>
        var rest := ScanChanges(drs[1..], cache, env);
        assert forall i :: 1 <= i < |drs| ==> drs[i] == drs[1..][i - 1];
        rest
      case Some(v) =>
        var rest := ScanChanges(drs[1..], cache[d := v], env);
        assert forall i :: 1 <= i < |drs| ==> drs[i] == drs[1..][i - 1];
        assert rest.changed ==> exists i :: 0 <= i < |drs| && drs[i] in env.strValues
                                       && env.strValues[drs[i]] != Lookup(cache, drs[i]);
        Scan(rest.cache, v != Lookup(cache, d) || rest.changed, true)
  }

  /** Looking a name up in the cache inserts "" when it is missing */
  function FillCache(drs: seq<string>, cache: Cache): (c: Cache)
    ensures forall d :: d in c <==> d in cache || d in drs
    ensures forall d :: d in cache ==> c[d] == cache[d]
    ensures forall d :: d in c ==> Lookup(c, d) == Lookup(cache, d)
  {
    map d | d in cache.Keys + (set x | x in drs) :: Lookup(cache, d)
  }

  /** How one dataref's value counts */
  datatype Class = OnState | OffState | Unmatched

  /** With a non-empty on-set, on-set membership counts as on; otherwise a
      value in the off-set, or any value when the off-set is empty, counts as
      off. With an empty on-set, off-set membership counts as off and
      everything else as on. */
  function Classify(v: string, on: set<string>, off: set<string>): (c: Class)
    ensures c == Unmatched <==> on != {} && off != {} && v !in on && v !in off
    ensures on != {} ==> (c == OnState <==> v in on)
    ensures on == {} ==> (c == OffState <==> v in off)
  {
    if on != {} then
      if v in on then OnState
      else if v in off || off == {} then OffState
      else Unmatched
    else
      if v in off then OffState
      else if v in on || on == {} then OnState
      else Unmatched
  }

  /** The value a dataref is classified by: the value just read, or for an
      unreadable one whatever the cache held before */
  function CurrentValue(cache: Cache, env: Env, d: string): string {
    if d in env.strValues then env.strValues[d] else Lookup(cache, d)
  }

  /** The reference for what the classification pass reads: for each listed
      dataref in order, its current value. `CurrentValuesAfterScan` shows the
      cache after the scan holds exactly these values. */
  function CurrentValues(drs: seq<string>, cache: Cache, env: Env): (vals: seq<string>)
    ensures |vals| == |drs|
    ensures forall i :: 0 <= i < |drs| ==> vals[i] == CurrentValue(cache, env, drs[i])
  {
    seq(|drs|, i requires 0 <= i < |drs| => CurrentValue(cache, env, drs[i]))
  }

  /** Count the on and the off values; each occurrence counts at most once */
  function Counts(vals: seq<string>, on: set<string>, off: set<string>): (c: (nat, nat))
    ensures c.0 + c.1 <= |vals|
    ensures on == {} || off == {} ==> c.0 + c.1 == |vals|
    ensures c.0 == |vals| <==> forall i :: 0 <= i < |vals| ==> Classify(vals[i], on, off) == OnState
    ensures c.1 == |vals| <==> forall i :: 0 <= i < |vals| ==> Classify(vals[i], on, off) == OffState
    ensures c.0 > 0 <==> exists i :: 0 <= i < |vals| && Classify(vals[i], on, off) == OnState
    ensures c.1 > 0 <==> exists i :: 0 <= i < |vals| && Classify(vals[i], on, off) == OffState
    decreases |vals|
  {
    if |vals| == 0 then (0, 0)
    else
      var rest := Counts(vals[1..], on, off);
      assert forall i :: 1 <= i < |vals| ==> vals[i] == vals[1..][i - 1];
      match Classify(vals[0], on, off)
      case OnState => (rest.0 + 1, rest.1)
      case OffState => (rest.0, rest.1 + 1)
      case Unmatched => rest
  }

  /** Whether a send mode is satisfied by values in state `want`: all of
      them for `all`, at least one for `one` */
  predicate ModeHolds(mode: SendMode, vals: seq<string>, on: set<string>, off: set<string>, want: Class) {
    match mode
    case All => forall i :: 0 <= i < |vals| ==> Classify(vals[i], on, off) == want
    case One => exists i :: 0 <= i < |vals| && Classify(vals[i], on, off) == want
  }

  /** The message type of a task: a note becomes note-on or note-off, the
      other kinds keep their own type */
  function MsgTypeFor(t: Data1Type, on: bool): (r: MidiMsgType)
    ensures r == NoteOn <==> t == Note && on
    ensures r == NoteOff <==> t == Note && !on
    ensures r == MsgNone <==> t == NoType
    ensures t == ControlChange ==> r == MsgControlChange
    ensures t == PitchBend ==> r == MsgPitchBend
    ensures t == ProgramChange ==> r == MsgProgramChange
  {
    match t
    case NoType => MsgNone
    case ControlChange => MsgControlChange
    case Note => if on then NoteOn else NoteOff
    case PitchBend => MsgPitchBend
    case ProgramChange => MsgProgramChange
  }

  /** The send decision from the current values: a task is emitted iff the
      on condition or the off condition holds; when the on condition holds it
      wins. Channel and data-1 are copied from the mapping. */
  function Decide(m: DrfMapping, vals: seq<string>, changed: bool): (t: Option<OutboundTask>)
    requires |vals| == |m.datarefs|
    ensures t.Some? <==> ModeHolds(m.sendOn, vals, m.valuesOn, m.valuesOff, OnState)
                         || ModeHolds(m.sendOff, vals, m.valuesOn, m.valuesOff, OffState)
    ensures t.Some? ==>
              var on := ModeHolds(m.sendOn, vals, m.valuesOn, m.valuesOff, OnState);
              && t.value.data2 == (if on then m.data2On else m.data2Off)
              && t.value.msgType == MsgTypeFor(m.base.data1Type, on)
              && t.value.channel == m.base.channel && t.value.data1 == m.base.data1
              && t.value.dataChanged == changed
  {
    var cnt := Counts(vals, m.valuesOn, m.valuesOff);
    var onHolds := (m.sendOn == All && cnt.0 == |m.datarefs|) || (m.sendOn == One && cnt.0 > 0);
    var offHolds := (m.sendOff == All && cnt.1 == |m.datarefs|) || (m.sendOff == One && cnt.1 > 0);
    assert onHolds == ModeHolds(m.sendOn, vals, m.valuesOn, m.valuesOff, OnState);
    assert offHolds == ModeHolds(m.sendOff, vals, m.valuesOn, m.valuesOff, OffState);
    if onHolds || offHolds then
      Some(OutboundTask(MsgTypeFor(m.base.data1Type, onHolds), m.base.channel, m.base.data1,
                        if onHolds then m.data2On else m.data2Off, changed))
    else None
  }

  /** Whether the change-detection pass lets evaluation continue: on-change
      needs a change, permanent needs at least one successful read */
  function Gate(mode: OutboundSendMode, s: Scan): bool {
    match mode
    case OnChange => s.changed
    case Permanent => s.anyRead
  }

  /** Evaluate the mapping once: returns the new cache and possibly a task.
      The classification pass reads the cache through a lookup that inserts
      "" for a dataref never read so far. */
  function Execute(m: DrfMapping, cache: Cache, env: Env, mode: OutboundSendMode, activeSublayer: string)
    : (r: (Cache, Option<OutboundTask>))
    ensures !Mapping.CheckSublayer(m.base, activeSublayer) ==> r == (cache, None)
    ensures Mapping.CheckSublayer(m.base, activeSublayer) ==>
              forall d :: d in m.datarefs && d in env.strValues ==> d in r.0 && r.0[d] == env.strValues[d]
    ensures Mapping.CheckSublayer(m.base, activeSublayer) ==>
              forall d :: d in cache && !(d in m.datarefs && d in env.strValues) ==> d in r.0 && r.0[d] == cache[d]
    ensures forall d :: d in r.0 ==> d in cache || d in m.datarefs
    ensures forall d :: d in m.datarefs && d !in env.strValues && d !in cache ==>
              && (d in r.0 <==> Mapping.CheckSublayer(m.base, activeSublayer) && Gate(mode, ScanChanges(m.datarefs, cache, env)))
              && (d in r.0 ==> r.0[d] == "")
    ensures r.1 == if Mapping.CheckSublayer(m.base, activeSublayer) && Gate(mode, ScanChanges(m.datarefs, cache, env))
                   then Decide(m, CurrentValues(m.datarefs, cache, env), ScanChanges(m.datarefs, cache, env).changed)
                   else None
  {
    if !Mapping.CheckSublayer(m.base, activeSublayer) then (cache, None)
    else
      var s := ScanChanges(m.datarefs, cache, env);
      if !Gate(mode, s) then (s.cache, None)
      else
        var filled := FillCache(m.datarefs, s.cache);
        var vals := seq(|m.datarefs|, i requires 0 <= i < |m.datarefs| => Lookup(filled, m.datarefs[i]));
        CurrentValuesAfterScan(m.datarefs, cache, env, filled);
        assert vals == CurrentValues(m.datarefs, cache, env);
        (filled, Decide(m, vals, s.changed))
  }

  /** After the scan (and the filling lookups), the cache holds exactly the
      value each listed dataref is classified by. */
  lemma CurrentValuesAfterScan(drs: seq<string>, cache: Cache, env: Env, filled: Cache)
    requires filled == FillCache(drs, ScanChanges(drs, cache, env).cache)
    ensures forall i :: 0 <= i < |drs| ==> Lookup(filled, drs[i]) == CurrentValue(cache, env, drs[i])
  {
    var s := ScanChanges(drs, cache, env);
    forall i | 0 <= i < |drs| ensures Lookup(filled, drs[i]) == CurrentValue(cache, env, drs[i]) {
      var d := drs[i];
      assert d in drs;
      if d in env.strValues {
        assert s.cache[d] == env.strValues[d];
      } else if d in cache {
        assert s.cache[d] == cache[d];
      }
    }
  }

  /** In on-change mode a second evaluation against an unchanged simulator
      sends nothing: the first one already cached every readable value. */
  lemma OnChangeSendsOnce(m: DrfMapping, cache: Cache, env: Env, sl: string)
    requires Mapping.CheckSublayer(m.base, sl)
    ensures var c1 := Execute(m, cache, env, OnChange, sl).0;
            Execute(m, c1, env, OnChange, sl).1.None?
  {
    var c1 := Execute(m, cache, env, OnChange, sl).0;
    var s2 := ScanChanges(m.datarefs, c1, env);
    assert !s2.changed by {
      forall i | 0 <= i < |m.datarefs| && m.datarefs[i] in env.strValues
        ensures env.strValues[m.datarefs[i]] == Lookup(c1, m.datarefs[i])
      {
        assert m.datarefs[i] in m.datarefs;
      }
    }
  }

  /** The first observation of a non-empty value counts as a change */
  lemma FirstObservationIsChange(d: string, env: Env)
    requires d in env.strValues && env.strValues[d] != ""
    ensures ScanChanges([d], map[], env).changed
  {
    assert [d][0] == d;
  }

  /** An unreadable dataref leaves its cache entry untouched */
  lemma UnreadableKeepsCache(drs: seq<string>, cache: Cache, env: Env, d: string)
    requires d !in env.strValues
    ensures d in ScanChanges(drs, cache, env).cache <==> d in cache
    ensures d in cache ==> ScanChanges(drs, cache, env).cache[d] == cache[d]
  {
  }

  /** Reset the device: always a task, flagged as changed, data-2 zero; a
      note resolves to note-off, other kinds keep their own type. */
  function Reset(m: DrfMapping): (t: OutboundTask)
    ensures t.dataChanged && t.data2 == MidiData2Min
    ensures t.msgType != NoteOn
    ensures t.msgType == NoteOff <==> m.base.data1Type == Note
    ensures m.base.data1Type == ControlChange ==> t.msgType == MsgControlChange
    ensures m.base.data1Type == PitchBend ==> t.msgType == MsgPitchBend
    ensures m.base.data1Type == ProgramChange ==> t.msgType == MsgProgramChange
    ensures m.base.data1Type == NoType ==> t.msgType == MsgNone
    ensures t.channel == m.base.channel && t.data1 == m.base.data1
  {
    OutboundTask(MsgTypeFor(m.base.data1Type, false), m.base.channel, m.base.data1, MidiData2Min, true)
  }

  /** The datarefs of the mapping as text, one per line */
  function MapTextDrf(m: DrfMapping): (s: string)
    ensures Text.AllNonEmpty(m.datarefs) ==> s == Text.Join(m.datarefs)
    ensures |m.datarefs| == 0 ==> s == ""
    ensures s == Text.JoinFrom("", m.datarefs)
  {
    if Text.AllNonEmpty(m.datarefs) then
      Text.JoinFromMatchesJoin(m.datarefs);
      Text.JoinFrom("", m.datarefs)
    else Text.JoinFrom("", m.datarefs)
  }
}

=== FILE: text.dfy ===
/** Joining texts with newlines the way the loggers and the outbound dataref
    mapping do it: a separator is only added once the accumulated text is
    non-empty. */
module Text {

  /** The accumulating join: `acc` is the text built so far */
  function JoinFrom(acc: string, parts: seq<string>): string
    decreases |parts|
  {
    if |parts| == 0 then acc
    else JoinFrom(if acc == "" then parts[0] else acc + "\n" + parts[0], parts[1..])
  }

  /** The join as a reader expects it: one newline between consecutive parts */
  function Join(parts: seq<string>): string
    decreases |parts|
  {
    if |parts| == 0 then ""
    else if |parts| == 1 then parts[0]
    else parts[0] + "\n" + Join(parts[1..])
  }

  predicate AllNonEmpty(parts: seq<string>) {
    forall i :: 0 <= i < |parts| ==> parts[i] != ""
  }

  /** With a non-empty accumulator and non-empty parts, the accumulating join
      appends exactly one newline before each part. */
  lemma {:induction false} JoinFromNonEmpty(acc: string, parts: seq<string>)
    requires acc != ""
    requires AllNonEmpty(parts)
    ensures JoinFrom(acc, parts) == if |parts| == 0 then acc else acc + "\n" + Join(parts)
    decreases |parts|
  {
    if |parts| > 0 {
      var acc' := acc + "\n" + parts[0];
      assert AllNonEmpty(parts[1..]) by {
        forall i | 0 <= i < |parts[1..]| ensures parts[1..][i] != "" {
          assert parts[1..][i] == parts[i + 1];
        }
      }
      JoinFromNonEmpty(acc', parts[1..]);
      if |parts| > 1 {
        assert acc' + "\n" + Join(parts[1..]) == acc + "\n" + (parts[0] + "\n" + Join(parts[1..]));
      }
    }
  }

  /** When no part is empty, the accumulating join is the reference join. */
  lemma {:induction false} JoinFromMatchesJoin(parts: seq<string>)
    requires AllNonEmpty(parts)
    ensures JoinFrom("", parts) == Join(parts)
  {
    if |parts| > 0 {
      assert AllNonEmpty(parts[1..]) by {
        forall i | 0 <= i < |parts[1..]| ensures parts[1..][i] != "" {
          assert parts[1..][i] == parts[i + 1];
        }
      }
      JoinFromNonEmpty(parts[0], parts[1..]);
    }
  }

  /** Empty parts contribute nothing at the front of the accumulating join */
  lemma {:induction false} JoinFromSkipsLeadingEmpty(parts: seq<string>)
    requires |parts| > 0 && parts[0] == ""
    ensures JoinFrom("", parts) == JoinFrom("", parts[1..])
  {
  }
}

=== FILE: text_logger.dfy ===
/** The text logger: a leveled message list with error and warning counters,
    an optional parent that also receives every message, and a size bound on
    the list that applies in debug mode. Timestamps, printf formatting and the
    log file are not modelled; a message text is an opaque string. */
module TextLog {
  import opened Common
  import Text

  type Int32 = x: int | -0x8000_0000 <= x < 0x8000_0000

  const SizeTModulus: int := 0x1_0000_0000_0000_0000

  datatype LogMsg = LogMsg(level: LogLevel, text: string)

  datatype TextLogger = TextLogger(
    debugMode: bool,
    logInfo: bool,
    maxSize: Int32,
    errorCount: nat,
    warnCount: nat,
    messages: seq<LogMsg>
  )

  /** Level filter: errors and warnings always pass, info needs `logInfo` or
      debug mode, debug needs debug mode. */
  function CheckLogLevel(lg: TextLogger, level: LogLevel): (ok: bool)
    ensures level == Error || level == Warn ==> ok
    ensures level == Info ==> (ok <==> lg.logInfo || lg.debugMode)
    ensures level == Debug ==> (ok <==> lg.debugMode)
  {
    match level
    case Error => true
    case Warn => true
    case Info => lg.logInfo || lg.debugMode
    case Debug => lg.debugMode
  }

  /** Switching debug mode on never filters out a message that passed */
  lemma DebugModeAdmitsMore(lg: TextLogger, level: LogLevel)
    ensures CheckLogLevel(lg, level) ==> CheckLogLevel(lg.(debugMode := true), level)
    ensures CheckLogLevel(lg.(debugMode := true), level)
  {
  }

  /** The `int` bound converted to `size_t` for the comparison with the size */
  function SizeT(x: Int32): (n: nat)
    ensures x >= 0 ==> n == x
    ensures x < 0 ==> n >= SizeTModulus / 2
  {
    if x >= 0 then x else x + SizeTModulus
  }

  /** The guard of the trimming loop exactly as written: pop while the size
      is at least the bound. */
  predicate DropGuardAsWritten(size: nat, maxSize: Int32) {
    size >= SizeT(maxSize)
  }

  /** The trimming loop as written, over the configured `int` bound. Each
      round pops the front while the guard holds; `None` marks the round in
      which the guard holds on an empty list, so that `pop_front` would run
      on an empty deque. */
  function TrimAsWritten(msgs: seq<LogMsg>, maxSize: Int32): (r: Option<seq<LogMsg>>)
    ensures r.Some? ==> |r.value| <= |msgs| && r.value == msgs[|msgs| - |r.value|..]
    ensures r.Some? ==> !DropGuardAsWritten(|r.value|, maxSize)
    decreases |msgs|
  {
    if DropGuardAsWritten(|msgs|, maxSize) then
      if |msgs| == 0 then None
      else
        var r := TrimAsWritten(msgs[1..], maxSize);
        if r.Some? then
          assert msgs[1..][|msgs| - 1 - |r.value|..] == msgs[|msgs| - |r.value|..];
          r
        else r
    else Some(msgs)
  }

  /** The trimming loop with the emptiness check it evidently needs: drop the
      oldest messages until the list is shorter than the bound (or empty). */
  function Trim(msgs: seq<LogMsg>, bound: nat): (r: seq<LogMsg>)
    ensures |r| == if |msgs| < bound then |msgs| else if bound == 0 then 0 else bound - 1
    ensures r == msgs[|msgs| - |r|..]
    decreases |msgs|
  {
    if |msgs| > 0 && |msgs| >= bound then
      var r := Trim(msgs[1..], bound);
      assert msgs[1..][|msgs| - 1 - |r|..] == msgs[|msgs| - |r|..];
      r
    else msgs
  }

  /** With a bound of 0 the loop as written empties any list and then, its
      guard still true, pops an empty deque. */
  lemma {:induction false} EmptyListStillPopped(msgs: seq<LogMsg>)
    ensures TrimAsWritten(msgs, 0) == None
    decreases |msgs|
  {
    if |msgs| > 0 {
      EmptyListStillPopped(msgs[1..]);
    }
  }

  /** With any other bound the loop as written ends where the corrected trim
      does, so the bound 0 is the only faulting case. */
  lemma {:induction false} TrimAsWrittenAgrees(msgs: seq<LogMsg>, maxSize: Int32)
    requires maxSize != 0
    ensures TrimAsWritten(msgs, maxSize) == Some(Trim(msgs, SizeT(maxSize)))
    decreases |msgs|
  {
    if |msgs| > 0 && DropGuardAsWritten(|msgs|, maxSize) {
      TrimAsWrittenAgrees(msgs[1..], maxSize);
    }
  }

  /** Append a message; in debug mode the oldest ones are dropped first so
      that the list, new message included, respects the size bound. A negative
      bound converts to a size_t above 2^63, so then nothing is dropped. */
  function AddMessage(lg: TextLogger, level: LogLevel, text: string): (r: TextLogger)
    ensures |r.messages| > 0 && r.messages[|r.messages| - 1] == LogMsg(level, text)
    ensures !lg.debugMode ==> r.messages == lg.messages + [LogMsg(level, text)]
    ensures lg.debugMode && lg.maxSize >= 1 ==> |r.messages| <= lg.maxSize
    ensures lg.debugMode && lg.maxSize >= 1 && |lg.messages| >= lg.maxSize ==> |r.messages| == lg.maxSize
    ensures lg.debugMode && lg.maxSize >= 1 && |lg.messages| < lg.maxSize ==> r.messages == lg.messages + [LogMsg(level, text)]
    ensures lg.debugMode && lg.maxSize < 0 && |lg.messages| < SizeTModulus / 2 ==>
              r.messages == lg.messages + [LogMsg(level, text)]
    ensures |r.messages| <= |lg.messages| + 1
    ensures var kept := r.messages[..|r.messages| - 1]; kept == lg.messages[|lg.messages| - |kept|..]
    ensures r.(messages := lg.messages) == lg
  {
    var kept := if lg.debugMode then Trim(lg.messages, SizeT(lg.maxSize)) else lg.messages;
    assert (kept + [LogMsg(level, text)])[..|kept|] == kept;
    lg.(messages := kept + [LogMsg(level, text)])
  }

  /** A message that fails the level filter is dropped; one that passes is
      added at the back. */
  function CreateMessage(lg: TextLogger, level: LogLevel, text: string): (r: TextLogger)
    ensures !CheckLogLevel(lg, level) ==> r == lg
    ensures CheckLogLevel(lg, level) ==> r == AddMessage(lg, level, text)
  {
    if CheckLogLevel(lg, level) then AddMessage(lg, level, text) else lg
  }

  /** Log a message: a warning or an error bumps its own counter by one; the
      parent, if any, receives the message through its own filter but its
      counters are left alone. */
  function Log(lg: TextLogger, parent: Option<TextLogger>, level: LogLevel, text: string)
    : (r: (TextLogger, Option<TextLogger>))
    ensures r.0.errorCount == lg.errorCount + (if level == Error then 1 else 0)
    ensures r.0.warnCount == lg.warnCount + (if level == Warn then 1 else 0)
    ensures !CheckLogLevel(lg, level) ==> r.0.messages == lg.messages
    ensures CheckLogLevel(lg, level) ==> r.0.messages == AddMessage(lg, level, text).messages
    ensures r.0.(errorCount := lg.errorCount, warnCount := lg.warnCount, messages := lg.messages) == lg
    ensures r.1.Some? <==> parent.Some?
    ensures parent.Some? ==>
              && r.1.value.errorCount == parent.value.errorCount
              && r.1.value.warnCount == parent.value.warnCount
              && r.1.value == CreateMessage(parent.value, level, text)
  {
    // the filter and the list do not depend on the counters, so bumping the
    // counter after adding the message is the same as bumping it before
    var added := CreateMessage(lg, level, text);
    var counted := match level
      case Error => added.(errorCount := lg.errorCount + 1)
      case Warn => added.(warnCount := lg.warnCount + 1)
      case _ => added;
    (counted,
     match parent
     case None => None
     case Some(p) => Some(CreateMessage(p, level, text)))
  }

  predicate HasErrors(lg: TextLogger) {
    lg.errorCount > 0
  }

  predicate HasWarnings(lg: TextLogger) {
    lg.warnCount > 0
  }

  /** After an error (a warning) the logger reports errors (warnings) */
  lemma LoggedErrorIsReported(lg: TextLogger, parent: Option<TextLogger>, level: LogLevel, text: string)
    ensures level == Error ==> HasErrors(Log(lg, parent, level, text).0)
    ensures level == Warn ==> HasWarnings(Log(lg, parent, level, text).0)
    ensures HasErrors(lg) ==> HasErrors(Log(lg, parent, level, text).0)
  {
  }

  /** Reset both counters and empty the list; the settings stay */
  function Clear(lg: TextLogger): (r: TextLogger)
    ensures !HasErrors(r) && !HasWarnings(r) && |r.messages| == 0
    ensures r.debugMode == lg.debugMode && r.logInfo == lg.logInfo && r.maxSize == lg.maxSize
  {
    lg.(errorCount := 0, warnCount := 0, messages := [])
  }

  function Texts(msgs: seq<LogMsg>): (ts: seq<string>)
    ensures |ts| == |msgs| && forall i :: 0 <= i < |msgs| ==> ts[i] == msgs[i].text
  {
    seq(|msgs|, i requires 0 <= i < |msgs| => msgs[i].text)
  }

  /** All message texts in one string: the sole text when there is one
      message, otherwise the texts joined with newlines, where no separator is
      added while the accumulated text is still empty. */
  method MessagesAsText(lg: TextLogger) returns (text: string)
    ensures |lg.messages| == 1 ==> text == lg.messages[0].text
    ensures text == Text.JoinFrom("", Texts(lg.messages))
    ensures Text.AllNonEmpty(Texts(lg.messages)) ==> text == Text.Join(Texts(lg.messages))
  {
    var texts := Texts(lg.messages);
    if Text.AllNonEmpty(texts) {
      Text.JoinFromMatchesJoin(texts);
    }
    if |lg.messages| == 1 {
      return lg.messages[0].text;
    }
    text := "";
    var i := 0;
    while i < |lg.messages|
      invariant 0 <= i <= |lg.messages|
      invariant Text.JoinFrom(text, texts[i..]) == Text.JoinFrom("", texts)
    {
      assert texts[i..][1..] == texts[i + 1..];
      if text == "" {
        text := lg.messages[i].text;
      } else {
        text := text + "\n" + lg.messages[i].text;
      }
      i := i + 1;
    }
  }
}
